=== FILE: README.md ===
# e-commerce-rs: order orchestration, admission control, catalog and identity in Dafny

This project models the sequential core of a small commerce platform built from three RPC
services (identity, catalog, order) over one relational database, plus the fixed-window rate
limiter placed in front of the identity service (user/src/main.rs:43-48; the catalog and order
services add no layer). Every handler becomes a pure transition function. It
takes the store and the request and returns a `Step`: the caller's outcome, which is a reply
with a success flag and a message, or an infrastructure `Fault`, together with the store
afterwards. Each call is one atomic step.

- `basics.dfy` (`Basics`): `Option`, `Outcome` (reply or fault), `Step`, and the rule that an empty request string is stored as NULL.
- `tables.dfy` (`Tables`): a table of rows keyed by a text id. It also keeps the ids in insertion order, which stands in for the `ORDER BY created_at DESC` of the listing queries. It provides `INSERT`, `UPDATE`, `DELETE`, filtered listing and `COUNT(*)`.
- `pagination.dfy` (`Pagination`): page normalisation, the `LIMIT`/`OFFSET` slice, and the 32-bit offset finding below.
- `order_status.dfy` (`OrderStatus`): the six statuses, their stored texts and their wire integers.
- `ratelimit.dfy` (`RateLimit`): `RateLimitService::call`. It derives the client key, makes the three-way window decision, and answers 429 without calling the inner service.
- `catalog.dfy` (`Catalog`): the product handlers over the `products` table.
- `identity.dfy` (`Identity`): register, login, verify, profile read and update over the `users` table.
- `order_service.dfy` (`OrderService`): create, update, cancel, get and list orders. The identity and catalog collaborators are the `Identity.Verify` and `Catalog.CheckAvailability` functions of this model, evaluated on the same store that order creation and cancellation write.

Behaviour worth knowing, each proved:

- Creating an order checks every item before it writes anything (`OrderService.CreateOrder`). Cancelling is the exact inverse on stock (`OrderService.CreateThenCancel`).
- Availability is checked item by item. A product listed twice can therefore be sold past its stock: with 3 in stock, two items of 2 leave -1 (`OrderService.DuplicateItemsOversell`).
- `update_order` has no transition check. A cancelled order can be set back to pending, and cancelling it again restocks its items a second time (`OrderService.ReopenedOrderRestocksTwice`).
- `update_order` with an empty shipping address clears the stored address. It binds NULL (order/src/order.rs:409-413), although the demo client's comment says the address is kept.
- Pending is taken to be enumerator 0 (see "## Left out"), and 0 means "all statuses" to `list_orders` (order/src/order.rs:615). Asking for Pending by its own value therefore lists every order (`OrderService.PendingFilterListsAll`). Pending orders are listed on their own only by sending a value outside 0..5, which reads as Pending (`OrderService.OutOfRangeFilterListsPending`).
- The order service's `verify_user_by_id` calls the identity service without an `x-forwarded-for` header (order/src/order.rs:158-173). Every verification made by order creation therefore lands in the shared `unknown` bucket of the identity service's limiter, 10 calls per 60 s. An eleventh creation within a window gets a 429 from the identity service, which `create_order` turns into a fault. In this model that is the `Ports.identityUp == false` case of `OrderService.CreateOrder` (`OrderService.CreateFaults`).
- Every client without a readable `x-forwarded-for` header shares one quota bucket. That bucket is also the one for a client that sends the literal value `unknown` (`RateLimit.SentinelBucketShared`).

- `update_product` checks the id, the price and the stock, but not the name (product/src/product.rs:123-145). `add_product` does reject an empty name (product/src/product.rs:57-63). An update can therefore store a product with an empty name (`Catalog.UpdateProduct`).

## Model

| member | source | states |
|---|---|---|
| `Pagination.Normalize` | order/src/order.rs:604-610 | page ≤ 0 becomes 1; size ≤ 0 or > 100 becomes 10; otherwise both pass through; the offset (page-1)·size is never negative |
| `Pagination.Slice` | order/src/order.rs:617-627 | LIMIT/OFFSET: at most `limit` rows, row i of the page is row offset+i of the result, empty past the end |
| `Pagination.RowOnPage` | product/src/product.rs:304-324 | paging skips nothing: row i of a result is item i mod size of page i div size + 1 |
| `Pagination.OffsetAsWritten` | order/src/order.rs:610 | the offset as computed, a product of two i32 values wrapped to 32 bits; whenever the true product fits in 32 bits it is the true offset |
| `Pagination.OffsetAsWrittenWrapsPositive` | order/src/order.rs:688-694 | page 42949674 with size 100 gives offset 4, where the true offset is 4294967300 |
| `Pagination.SliceAsWritten` | order/src/order.rs:610-627 | the page as fetched with the 32-bit offset: refused (an internal error) iff that offset is negative, otherwise rows from the wrapped offset; the corrected page whenever the true offset fits in 32 bits |
| `Pagination.NegativeWrapRefusesPage` | order/src/order.rs:610-627 | page 2147483647 with size 100 makes the listing fail |
| `Pagination.PositiveWrapShowsEarlyRows` | product/src/product.rs:304-324 | page 42949674 with size 100 shows rows 4..103 again, where the corrected page is empty |
| `Pagination.LastPage` | order/src/order.rs:615-669 | the page numbered by the result count (ceiling of count / size) holds rows and the next page is empty |
| `Pagination.OffsetAsWrittenGoesNegative` | order/src/order.rs:688-694 | page 2147483647 with size 100 gives offset -200, where the true offset is 214748364600 |
| `OrderStatus.ToText` | order/src/order.rs:62-72 | each status has one of the six stored texts, and reading that text back gives the same status |
| `OrderStatus.FromText` | order/src/order.rs:50-60 | any text other than the six reads as Pending; only the six texts give a status other than Pending |
| `OrderStatus.TextsDistinguish` | order/src/order.rs:62-72 | two statuses have the same text iff they are equal |
| `OrderStatus.TextRoundTrip` | order/src/order.rs:50-72 | each of the six texts survives a read and a write unchanged |
| `OrderStatus.FromWire` | order/src/order.rs:401-402 | an enumerator value outside 0..5 reads as Pending |
| `OrderStatus.ToWire` | order/src/order.rs:612-615 | each status has a wire value in 0..5 that reads back as the same status |
| `OrderStatus.WireRoundTrip` | order/src/order.rs:612 | every valid wire value survives a read and a write |
| `RateLimit.ClientKey` | common/src/ratelimit.rs:72-77 | the key is the forwarded-for header's text when it is present and visible ASCII, else "unknown" |
| `RateLimit.SentinelBucketShared` | common/src/ratelimit.rs:72-77 | a headerless client and one sending the value "unknown" share one bucket |
| `RateLimit.Admit` | common/src/ratelimit.rs:83-102 | first sighting inserts {1, now} and allows; if strictly more than a window has elapsed, resets to {1, now} and allows; else allows and increments while count < max; else denies with the slot unchanged; no other key's slot changes |
| `RateLimit.Call` | common/src/ratelimit.rs:104-120 | an allowed call returns the inner service's response; a denied one returns an empty 429 and never reaches the inner service; the client map is the admission's |
| `RateLimit.AdmitKeepsBounded` | common/src/ratelimit.rs:83-102 | every slot keeps 1 ≤ count ≤ max(1, max_requests) |
| `RateLimit.AllowedCount` | common/src/ratelimit.rs:83-102 | folds the admission decision over one client's successive calls and counts the admitted ones, never more than the calls |
| `RateLimit.WithinWindow` | common/src/ratelimit.rs:91-95 | within one window a slot admits exactly min(calls, max(1, max_requests) − count) further calls |
| `RateLimit.FirstWindow` | common/src/ratelimit.rs:96-102 | from a client's first call, at most max(1, max_requests) calls inside that window are admitted |
| `RateLimit.EleventhCallDenied` | user/src/main.rs:43 | with 10 per 60 s, eleven calls within a minute of the first admit exactly ten |
| `RateLimit.WindowExpiryResets` | common/src/ratelimit.rs:86-90 | a call more than a window after the window start is admitted and starts a new window |
| `Catalog.Row` | product/src/product.rs:87-103 | a stored row carries the request's name, price and stock; empty description and category become NULL |
| `Catalog.AddProduct` | product/src/product.rs:57-114 | succeeds iff name non-empty, price ≥ 0 and stock ≥ 0 (id free); failures report the first failed check in that order and insert nothing; success inserts exactly the new row as the newest in the `created_at` order (last in insertion order, so first in a newest-first listing) and keeps stock non-negative |
| `Catalog.GetProduct` | product/src/product.rs:238-266 | succeeds iff id non-empty and present, returning that row |
| `Catalog.AddThenGet` | product/src/product.rs:81-114 | an added product reads back with the fields it was added with |
| `Catalog.UpdateProduct` | product/src/product.rs:123-197 | succeeds iff id non-empty, price ≥ 0, stock ≥ 0 and the product exists; the row is then fully overwritten in place; otherwise nothing changes and the first failed check is reported |
| `Catalog.DeleteProduct` | product/src/product.rs:206-229 | succeeds iff id non-empty and present, removing exactly that row and its id from the `created_at` order, where the other products keep their relative order (`Tables.WithoutSplices`); otherwise nothing changes |
| `Catalog.DeleteThenGet` | product/src/product.rs:213-224 | after a delete the product is not found and a second delete fails |
| `Catalog.GetProductsByIds` | product/src/product.rs:275-295 | empty input gives an empty list; otherwise exactly the existing listed products, each once, missing ids omitted |
| `Catalog.ListProducts` | product/src/product.rs:304-366 | one page of the products in the category (all when empty): exactly the rows of the newest-first result from the page's offset, up to the page size, with the category's total count |
| `Catalog.CheckAvailability` | product/src/product.rs:375-413 | available iff the id is non-empty, the product exists and its stock ≥ quantity; current stock reported for an existing product, else 0 |
| `Catalog.UpdateInventory` | product/src/product.rs:422-495 | succeeds iff the product exists and stock + change ≥ 0, then stock becomes that; on failure nothing changes and the current stock (or 0) is reported; stock ≥ 0 is preserved |
| `Catalog.AvailabilityMatchesInventory` | product/src/product.rs:392-475 | a quantity is available iff withdrawing it through the inventory update would succeed |
| `Catalog.InventoryRoundTrip` | product/src/product.rs:461-495 | an accepted change followed by its negation restores the table |
| `Identity.IssueClaims` | user/src/user.rs:44-50 | a token's claims name the user, are issued now and expire 24·3600 s later |
| `Identity.Register` | user/src/user.rs:93-149 | any empty field is rejected; a taken username or email (or id) is a duplicate; both leave the users unchanged; success inserts exactly the new user and keeps usernames and emails unique |
| `Identity.FindByUsername` | user/src/user.rs:159-168 | finds a user with that username whenever one exists, and under uniqueness the only one |
| `Identity.Login` | user/src/user.rs:158-215 | succeeds iff the username's user exists and the password checks against its hash; on success the profile (id, username, email) is that user's row and the token is signed for that id; every failure is the same reply with an empty token |
| `Identity.LoginFailuresAlike` | user/src/user.rs:170-197 | an unknown username and a wrong password give identical replies |
| `Identity.RegisterThenLogin` | user/src/user.rs:102-215 | a newly registered user logs in with its password and receives a day-long token for its id |
| `Identity.GetUserProfile` | user/src/user.rs:261-289 | succeeds iff the id exists, returning that user's profile |
| `Identity.Verify` | user/src/user.rs:223-248 | valid iff a user with that id exists; the returned id is the requested one when valid, empty otherwise |
| `Identity.RegisterThenVerify` | user/src/user.rs:223-248 | a newly registered id verifies |
| `Identity.UpdateUserProfile` | user/src/user.rs:303-344 | an unknown id is not found; otherwise only that user's email changes (a taken email is a fault) |
| `Identity.UpdateThenGetProfile` | user/src/user.rs:261-344 | a profile read after a successful update shows the new email and the same username |
| `OrderService.Withdraw` | order/src/order.rs:333-361 | each product's stock falls by the total quantity of the lines naming it; nothing else changes |
| `OrderService.Restock` | order/src/order.rs:519-537 | each product's stock rises by the total quantity of the lines naming it; nothing else changes |
| `OrderService.RestockUndoesWithdraw` | order/src/order.rs:528-537 | restocking an order's lines exactly undoes their withdrawal |
| `OrderService.View` | order/src/order.rs:103-156 | a read order carries the stored total, status, address (empty when NULL) and captured unit prices, with subtotal = price × quantity; each item's name is the catalog's current name for it, empty when the product is gone |
| `OrderService.PriceSnapshot` | order/src/order.rs:120-133 | the total and unit prices an order reads back with do not depend on the catalog's current prices |
| `OrderService.ValidateItems` | order/src/order.rs:255-302 | accepts iff every item has quantity > 0, is available and is priced, producing one line per item at the current price; otherwise names the first failing item and its first failed check |
| `OrderService.CreateOrder` | order/src/order.rs:226-385 | succeeds iff user id and items are non-empty, the user verifies and every item passes; an empty user id, empty items and (with the identity service reachable) an unknown user are `success = false` replies with their messages; any rejection or fault leaves the store unchanged; success stores a PENDING order with one line per item at the captured price, total = Σ price × quantity, files the order as the newest in the `created_at` order, and withdraws the lines from stock |
| `OrderService.CreateFaults` | order/src/order.rs:245-331 | faults iff, past the two input checks, the identity service is down, or the user exists and the catalog is down at a first item of positive quantity, or every item passes and the order id collides |
| `OrderService.CreateReportsFirstBadItem` | order/src/order.rs:259-296 | the rejection message is the first failing item's first failed check |
| `OrderService.LinesCarryRequest` | order/src/order.rs:301-347 | the stored lines hold, per product, exactly the quantity requested |
| `OrderService.CreateWithdrawsRequested` | order/src/order.rs:352-360 | each product's stock falls by the total quantity requested for it |
| `OrderService.CreateSingleItem` | order/src/order.rs:256-323 | one item of 2 at 999 gives a pending order of total 1998 with address "A", and stock falls by 2 |
| `OrderService.DuplicateItemsOversell` | order/src/order.rs:269-283 | a product listed twice can be sold past its stock, which becomes negative |
| `OrderService.CancelOrder` | order/src/order.rs:452-556 | fails with no change for an empty or unknown id, another owner, or a CANCELLED or DELIVERED order (in that order); otherwise restocks every line and sets CANCELLED, changing nothing else: the users, the other orders, and every order's place in the `created_at` order are kept |
| `OrderService.CreateThenCancel` | order/src/order.rs:499-555 | create then cancel restores stock exactly; a second cancel reports already cancelled and changes nothing |
| `OrderService.UpdateOrder` | order/src/order.rs:393-444 | empty id is rejected, unknown id is not found, both without change; otherwise status (invalid value as PENDING) and address (empty as NULL) are overwritten from any prior status |
| `OrderService.ReopenedOrderRestocksTwice` | order/src/order.rs:401-417 | a cancelled order can be set to pending and cancelled again, restocking its lines a second time |
| `OrderService.UpdateClearsAddress` | order/src/order.rs:409-413 | an empty address in an update clears the stored address |
| `OrderService.GetOrder` | order/src/order.rs:564-595 | succeeds iff id non-empty and present, returning that order's view; otherwise order id required or not found; a fault only when the order exists and the catalog is unreachable |
| `OrderService.CreateThenGet` | order/src/order.rs:367-384 | the order a successful create replies with is the order a later get reads back |
| `OrderService.Page` | order/src/order.rs:615-669 | a page holds exactly the rows of the filter's newest-first result from the page's offset, up to the page size, each rendered from its stored order, with the filter's total count; a fault iff the catalog is unreachable and the page is non-empty |
| `OrderService.ListOrders` | order/src/order.rs:598-671 | status 0 lists every order, any other value only orders of that status; the page is exactly the filtered newest-first rows from the page's offset, up to the page size, each rendered from its stored order; total count is the size of that filtered set, whatever the page; a fault iff the catalog is down and the page is non-empty |
| `OrderService.ListAllCountsEverything` | order/src/order.rs:615-634 | with status 0 the total count is the number of orders |
| `OrderService.CountLocatesLastPage` | order/src/order.rs:629-657 | paging by the reported total n (the count page 1 replies with) reaches every matching order: page ⌈n / size⌉ is non-empty when n > 0, and the page after it is empty |
| `OrderService.OutOfRangeFilterListsPending` | order/src/order.rs:612-615 | a status value outside 0..5 lists exactly the pending orders and counts them |
| `OrderService.PendingFilterListsAll` | order/src/order.rs:612-615 | asking for PENDING (value 0) counts orders of every status |
| `OrderService.GetOrdersByUser` | order/src/order.rs:679-726 | an empty user id is rejected with no orders and count 0; otherwise the page is exactly that user's newest-first orders from the page's offset, up to the page size, each rendered from its stored order, with the count over all of them; a fault iff the id is non-empty, the catalog is down and the page is non-empty |
| `Tables.WithoutSplices` | product/src/product.rs:213-224 | deleting the row at position i of the insertion order removes just that id: the ids before and after it keep their relative order |
| `OrderService.NewestFirst` | order/src/order.rs:616-642 | a newly inserted row heads every newest-first listing whose filter keeps it |
| `OrderService.CreateListedFirst` | order/src/order.rs:612-726 | a freshly created order is listed first on page 1, both among all orders and among its user's orders |
| `Tables.WhereCount` | product/src/product.rs:313-353 | a listing walks exactly the rows its COUNT(*) counts |

## Findings

| source | as written | input that shows it | evidently intended | confidence | as-written member | corrected member |
|---|---|---|---|---|---|---|
| order/src/order.rs:610 (also :694 and product/src/product.rs:310) | `(page - 1) * page_size` is computed in `i32` | page = 2147483647, page_size = 100: the product wraps to -200 in a release build (a debug build panics), and the database rejects a negative OFFSET, so the handler returns an internal error | an empty page for any page past the end; the offset is never negative | medium, not executed | `Pagination.SliceAsWritten` (`Pagination.OffsetAsWrittenGoesNegative`, `Pagination.NegativeWrapRefusesPage`) | `Pagination.Normalize` |
| order/src/order.rs:610 (also :694 and product/src/product.rs:310) | `(page - 1) * page_size` is computed in `i32` | page = 42949674, page_size = 100: the product wraps to 4 in a release build, so the listing succeeds and shows rows 4..103 again | an empty page, since the true offset 4294967300 is past the end of any realistic table | medium, not executed | `Pagination.SliceAsWritten` (`Pagination.OffsetAsWrittenWrapsPositive`, `Pagination.PositiveWrapShowsEarlyRows`) | `Pagination.Normalize` |

## Left out

- RPC, SQL, async and connection plumbing are not modelled. Three kinds of fault are modelled. The first is an unreachable collaborator (`Ports`). The second is a colliding fresh id in `add_product` or `create_order`, a primary-key violation. In `register` a colliding id is instead the duplicate reply, since its error text contains "duplicate key". The third is a taken email in `update_user_profile`, a unique-key violation. Other database failures are not modelled. Neither is a failed re-read after a commit. In `create_order`, neither is a failure of the catalog lookup that renders item names after the commit (order/src/order.rs:363-377). `Ports` is fixed for a whole call, so that catalog was already reachable during validation. A catalog that drops between validation and rendering would give a fault while the order and the stock changes persist, and the model does not capture that. `update_order` does model its post-write fault: with the catalog down, the update stays written and the caller sees a fault.
- Prices are integer minor units. f64 arithmetic, `Decimal::from_f64_retain` and its failure, and float rounding of totals are not modelled.
- Stock, quantity and price × quantity are unbounded integers. The `i32` overflow of those sums is not modelled. The paging offset's overflow is modelled in `Pagination.SliceAsWritten` and logged under Findings. The handlers use the corrected offset.
- Password hashing and token signing are the function parameters `hash`, `check` and `sign`. The bcrypt salt, hashing or checking errors, JWT encoding errors, and the signing secret are not modelled.
- `verify_token` is not modelled, because no handler calls it.
- UUIDs are fresh-id parameters. Line-item ids are not modelled.
- Clock reads are the `now` parameters. `created_at` and `updated_at` are not stored; newest-first order is reverse insertion order.
- The `order_items` rows of an order are kept inside the order, because they are written only at creation. `get_order_items` has no `ORDER BY`, so the source returns an order's items in whatever order the database yields. The model returns them in creation order (`OrderService.View`, `OrderService.CreateOrder`).
- Product names in order replies are read directly from the product table. That is what the batch `get_products_by_ids` lookup returns. `GetProductsByIds` returns table order, because the query has no `ORDER BY`.
- The concurrency hazards are not modelled: the race between the availability check and the decrement, DashMap sharding, and transaction isolation. Each call is one atomic step.
- A header sent more than once counts by its first value, as `HeaderMap::get` returns it. Instants are integer ticks.
- The protobuf enumeration file is not part of this model. The status wire values are taken to be 0..5 in declaration order: a protobuf 3 enumeration starts at 0, and `status_to_string` handles exactly six variants.
- The database schema is not part of this model. The `users` table is taken to have unique usernames and unique emails, which the register handler's duplicate-key message implies.
- Reply messages are constructors named after the source's texts. The formatted counts and ids inside the texts are not modelled.
- `common/src/logging.rs` is a side channel that returns the inner result unchanged, so it is not modelled. The demo clients, the `main` wiring (except the 10 per 60 s limiter) and `common/build.rs` are not modelled either.
- `get_product` is modelled because other lemmas use it.
- `Catalog.ListProducts`: pages at the corrected, unbounded offset, not at the wrapped `i32` offset the source computes. It therefore succeeds with an empty page where the source fails (page 2147483647, size 100), and with an empty page where the source shows early rows again (page 42949674, size 100). `Pagination.SliceAsWritten` models the page as written.
- `OrderService.Page`: pages at the corrected offset, with the same two divergences from the source as `Catalog.ListProducts`.
- `OrderService.ListOrders`: built on `OrderService.Page`, so it uses the corrected offset. It replies where the source fails at page 2147483647.
- `OrderService.GetOrdersByUser`: built on `OrderService.Page`, so it uses the corrected offset. It has the same two divergences at order/src/order.rs:694.
- `Catalog.ListProducts`: reports the exact, unbounded product count. The source casts the count to `i32` (product/src/product.rs:365), which truncates a count above 2147483647; such a table is not modelled.
- `OrderService.ListOrders`: reports the exact, unbounded order count. The source casts the count to `i32` (order/src/order.rs:669), which truncates a count above 2147483647.
- `OrderService.GetOrdersByUser`: reports the exact, unbounded count of the user's orders. The source casts it to `i32` (order/src/order.rs:725), with the same truncation above 2147483647.

=== FILE: basics.dfy ===
/** Shapes shared by every service: nullable columns and the two error channels of a handler. */
module Basics {

  /** A nullable column, or an absent optional value. */
  datatype Option<+T> = None | Some(value: T)

  /** What a handler hands back: a reply, which carries its own business success flag and
      message, or an infrastructure fault (a `Status::internal` / `Status::unavailable`). */
  datatype Outcome<+R> = Reply(reply: R) | Fault

  /** One handler invocation over a store: what the caller sees, and the store afterwards. */
  datatype Step<+R, +S> = Step(outcome: Outcome<R>, next: S)

  /** The services bind an empty request string as SQL NULL. */
  function NullIfEmpty(s: string): (r: Option<string>)
    ensures r.None? <==> s == ""
    ensures OrEmpty(r) == s
  {
    if s == "" then None else Some(s)
  }

  function Min(a: int, b: int): int
  {
    if a <= b then a else b
  }

  function Max(a: int, b: int): int
  {
    if a >= b then a else b
  }

  /** `unwrap_or_default` on a nullable text column. */
  function OrEmpty(o: Option<string>): string
  {
    match o
    case None => ""
    case Some(s) => s
  }
}

=== FILE: catalog.dfy ===
/** The catalog service (`ProductServiceImpl`) over the `products` table. Prices are integer
    minor currency units. */
module Catalog {
  import opened Basics
  import opened Tables
  import Pagination

  datatype Product = Product(
    name: string,
    description: Option<string>,
    price: int,
    stock: int,
    category: Option<string>)

  type Products = Table<Product>

  /** The business messages of the catalog handlers. */
  datatype Msg =
    | NameRequired        // "Product name is required"
    | IdRequired          // "Product ID is required"
    | NegativePrice       // "Price cannot be negative"
    | NegativeStock       // "Stock quantity cannot be negative"
    | NotFound            // "Product not found"
    | Added | Updated | Deleted | Retrieved | Listed
    | Available           // "Product is available"
    | InsufficientStock   // "Insufficient stock. ..."
    | InventoryUpdated

  /** The editable fields of an add or update request. */
  datatype Fields = Fields(name: string, description: string, price: int, stock: int, category: string)

  /** The row a request's fields are stored as: empty optional texts become NULL. */
  function Row(f: Fields): (p: Product)
    ensures p.name == f.name && p.price == f.price && p.stock == f.stock
    ensures OrEmpty(p.description) == f.description && OrEmpty(p.category) == f.category
  {
    Product(f.name, NullIfEmpty(f.description), f.price, f.stock, NullIfEmpty(f.category))
  }

  /** Every product's stock is non-negative. */
  ghost predicate StockNonNegative(db: Products)
  {
    forall id :: id in db.rows ==> db.rows[id].stock >= 0
  }

  // ---------------------------------------------------------------- add_product

  datatype AddReply = AddReply(success: bool, message: Msg, productId: string)

  /** `add_product`: name, price and stock are checked in that order; a new row is inserted
      under the fresh id only when all pass (a colliding id is a database fault). */
  function AddProduct(db: Products, req: Fields, freshId: string): (r: Step<AddReply, Products>)
    ensures r.outcome.Reply? && r.outcome.reply.success <==>
              req.name != "" && req.price >= 0 && req.stock >= 0 && freshId !in db.rows
    ensures r.outcome.Fault? <==>
              req.name != "" && req.price >= 0 && req.stock >= 0 && freshId in db.rows
    ensures !(r.outcome.Reply? && r.outcome.reply.success) ==> r.next == db
    ensures r.outcome.Reply? && r.outcome.reply.success ==>
              && r.outcome.reply.productId == freshId && r.next.rows == db.rows[freshId := Row(req)]
              && r.next.order == db.order + [freshId]
    ensures r.outcome.Reply? && !r.outcome.reply.success ==>
              r.outcome.reply.productId == "" &&
              r.outcome.reply.message == (if req.name == "" then NameRequired
                                          else if req.price < 0 then NegativePrice
                                          else NegativeStock)
    ensures Valid(db) ==> Valid(r.next)
    ensures StockNonNegative(db) ==> StockNonNegative(r.next)
  {
    if req.name == "" then Step(Reply(AddReply(false, NameRequired, "")), db)
    else if req.price < 0 then Step(Reply(AddReply(false, NegativePrice, "")), db)
    else if req.stock < 0 then Step(Reply(AddReply(false, NegativeStock, "")), db)
    else if freshId in db.rows then Step(Fault, db)
    else Step(Reply(AddReply(true, Added, freshId)), Insert(db, freshId, Row(req)))
  }

  // ---------------------------------------------------------------- get_product

  datatype GetReply = GetReply(success: bool, message: Msg, product: Option<Product>)

  /** `get_product`. */
  function GetProduct(db: Products, id: string): (r: GetReply)
    ensures r.success <==> id != "" && id in db.rows
    ensures r.success ==> r.product == Some(db.rows[id])
    ensures !r.success ==> r.product == None && r.message == (if id == "" then IdRequired else NotFound)
  {
    if id == "" then GetReply(false, IdRequired, None)
    else if id in db.rows then GetReply(true, Retrieved, Some(db.rows[id]))
    else GetReply(false, NotFound, None)
  }

  /** An added product reads back with exactly the fields it was added with. */
  lemma AddThenGet(db: Products, req: Fields, freshId: string)
    requires freshId != ""
    requires var r := AddProduct(db, req, freshId); r.outcome.Reply? && r.outcome.reply.success
    ensures GetProduct(AddProduct(db, req, freshId).next, freshId).product == Some(Row(req))
  {
  }

  // ---------------------------------------------------------------- update_product

  datatype UpdateReply = UpdateReply(success: bool, message: Msg, product: Option<Product>)

  /** `update_product`: id, price and stock are checked in that order (the name is not); an
      existing row has every field overwritten, an absent one reports not found. */
  function UpdateProduct(db: Products, id: string, req: Fields): (r: Step<UpdateReply, Products>)
    ensures r.outcome.Reply?
    ensures r.outcome.reply.success <==> id != "" && req.price >= 0 && req.stock >= 0 && id in db.rows
    ensures !r.outcome.reply.success ==> r.next == db && r.outcome.reply.product == None
    ensures !r.outcome.reply.success ==>
              r.outcome.reply.message == (if id == "" then IdRequired
                                          else if req.price < 0 then NegativePrice
                                          else if req.stock < 0 then NegativeStock
                                          else NotFound)
    ensures r.outcome.reply.success ==>
              r.next.rows == db.rows[id := Row(req)] && r.next.order == db.order &&
              r.outcome.reply.product == Some(Row(req))
    ensures Valid(db) ==> Valid(r.next)
    ensures StockNonNegative(db) ==> StockNonNegative(r.next)
  {
    if id == "" then Step(Reply(UpdateReply(false, IdRequired, None)), db)
    else if req.price < 0 then Step(Reply(UpdateReply(false, NegativePrice, None)), db)
    else if req.stock < 0 then Step(Reply(UpdateReply(false, NegativeStock, None)), db)
    else if id !in db.rows then Step(Reply(UpdateReply(false, NotFound, None)), db)
    else
      var next := Set(db, id, Row(req));
      Step(Reply(UpdateReply(true, Updated, Some(Row(req)))), next)
  }

  // ---------------------------------------------------------------- delete_product

  datatype DeleteReply = DeleteReply(success: bool, message: Msg)

  /** `delete_product`: removes exactly the named row. */
  function DeleteProduct(db: Products, id: string): (r: Step<DeleteReply, Products>)
    ensures r.outcome.Reply?
    ensures r.outcome.reply.success <==> id != "" && id in db.rows
    ensures !r.outcome.reply.success ==>
              r.next == db && r.outcome.reply.message == (if id == "" then IdRequired else NotFound)
    ensures r.outcome.reply.success ==> r.next.rows == db.rows - {id} && r.next.order == Without(db.order, id)
    ensures Valid(db) ==> Valid(r.next)
  {
    if id == "" then Step(Reply(DeleteReply(false, IdRequired)), db)
    else if id !in db.rows then Step(Reply(DeleteReply(false, NotFound)), db)
    else Step(Reply(DeleteReply(true, Deleted)), Delete(db, id))
  }

  /** Once deleted, a product is not found, and deleting it again fails. */
  lemma DeleteThenGet(db: Products, id: string)
    requires id != "" && id in db.rows
    ensures var after := DeleteProduct(db, id).next;
            && GetProduct(after, id) == GetReply(false, NotFound, None)
            && DeleteProduct(after, id).outcome == Reply(DeleteReply(false, NotFound))
  {
  }

  // ---------------------------------------------------------------- get_products_by_ids

  /** `get_products_by_ids`: the rows whose id is listed, each once, missing ids omitted. The
      query has no `ORDER BY`; the model returns them in table order. */
  function GetProductsByIds(db: Products, ids: seq<string>): (r: seq<(string, Product)>)
    ensures ids == [] ==> r == []
    ensures forall i :: 0 <= i < |r| ==> r[i].0 in ids && r[i].0 in db.rows && r[i].1 == db.rows[r[i].0]
    ensures Valid(db) ==> forall id :: id in ids && id in db.rows ==> exists i :: 0 <= i < |r| && r[i].0 == id
    ensures Valid(db) ==> forall i, j :: 0 <= i < j < |r| ==> r[i].0 != r[j].0
  {
    if ids == [] then []
    else
      var listed := map id | id in db.rows && id in ids :: db.rows[id];
      assert forall id :: id in listed <==> id in db.rows && id in ids;
      var hits := Select(db.order, listed, (p: Product) => true);
      var r := seq(|hits|, i requires 0 <= i < |hits| => (hits[i], db.rows[hits[i]]));
      assert forall id :: id in hits ==> exists i :: 0 <= i < |r| && r[i].0 == id by {
        forall id | id in hits
          ensures exists i :: 0 <= i < |r| && r[i].0 == id
        {
          var i :| 0 <= i < |hits| && hits[i] == id;
          assert r[i].0 == id;
        }
      }
      r
  }

  // ---------------------------------------------------------------- list_products

  datatype ListReply = ListReply(success: bool, message: Msg, products: seq<(string, Product)>, totalCount: nat)

  /** The category filter: empty lists everything, otherwise the category must match (a
      product without a category never matches). */
  function InCategory(category: string): Product -> bool
  {
    (p: Product) => category == "" || p.category == Some(category)
  }

  /** `list_products`: one page, newest first, of the products in the category, with the
      number of such products. */
  function ListProducts(db: Products, page: int, pageSize: int, category: string): (r: ListReply)
    ensures r.success
    ensures r.totalCount == Count(db, InCategory(category))
    ensures var w := Pagination.Normalize(page, pageSize);
            var all := Where(db, InCategory(category));
            |r.products| == (if w.offset >= |all| then 0 else Min(w.size, |all| - w.offset))
    ensures forall i :: 0 <= i < |r.products| ==>
              var (id, p) := r.products[i];
              id in db.rows && p == db.rows[id] && (category == "" || p.category == Some(category))
    ensures var w := Pagination.Normalize(page, pageSize);
            var all := Where(db, InCategory(category));
            forall i :: 0 <= i < |r.products| ==> w.offset + i < |all| && r.products[i].0 == all[w.offset + i]
  {
    var w := Pagination.Normalize(page, pageSize);
    var ids := Pagination.Slice(Where(db, InCategory(category)), w.offset, w.size);
    var ps := seq(|ids|, i requires 0 <= i < |ids| && ids[i] in db.rows => (ids[i], db.rows[ids[i]]));
    ListReply(true, Listed, ps, Count(db, InCategory(category)))
  }

  // ---------------------------------------------------------------- check_availability

  datatype AvailabilityReply = AvailabilityReply(available: bool, message: Msg, currentStock: int)

  /** `check_availability`: available exactly when the product exists with at least the
      requested stock; the current stock is reported for an existing product, 0 otherwise. */
  function CheckAvailability(db: Products, id: string, quantity: int): (r: AvailabilityReply)
    ensures r.available <==> id != "" && id in db.rows && db.rows[id].stock >= quantity
    ensures r.currentStock == (if id != "" && id in db.rows then db.rows[id].stock else 0)
    ensures r.message == (if id == "" then IdRequired
                          else if id !in db.rows then NotFound
                          else if r.available then Available
                          else InsufficientStock)
  {
    if id == "" then AvailabilityReply(false, IdRequired, 0)
    else if id !in db.rows then AvailabilityReply(false, NotFound, 0)
    else
      var stock := db.rows[id].stock;
      AvailabilityReply(stock >= quantity, if stock >= quantity then Available else InsufficientStock, stock)
  }

  // ---------------------------------------------------------------- update_inventory

  datatype InventoryReply = InventoryReply(success: bool, message: Msg, newStockQuantity: int)

  /** `stock_quantity = stock_quantity + delta` on one row; a missing row is left alone (an
      `UPDATE` that matches nothing). */
  function AddStock(db: Products, id: string, delta: int): (r: Products)
    ensures r.order == db.order && r.rows.Keys == db.rows.Keys
    ensures forall k :: k in r.rows ==>
              r.rows[k] == if k == id then db.rows[k].(stock := db.rows[k].stock + delta) else db.rows[k]
  {
    if id in db.rows then Table(db.rows[id := db.rows[id].(stock := db.rows[id].stock + delta)], db.order)
    else db
  }

  /** `update_inventory`: applies a signed change to one product's stock unless the result
      would be negative, in which case nothing changes and the current stock is reported. */
  function UpdateInventory(db: Products, id: string, change: int): (r: Step<InventoryReply, Products>)
    ensures r.outcome.Reply?
    ensures r.outcome.reply.success <==> id != "" && id in db.rows && db.rows[id].stock + change >= 0
    ensures !r.outcome.reply.success ==> r.next == db
    ensures r.outcome.reply.newStockQuantity == (if id != "" && id in db.rows then db.rows[id].stock + (if r.outcome.reply.success then change else 0) else 0)
    ensures r.outcome.reply.success ==> r.next == AddStock(db, id, change)
    ensures r.outcome.reply.message == (if id == "" then IdRequired
                                        else if id !in db.rows then NotFound
                                        else if r.outcome.reply.success then InventoryUpdated
                                        else InsufficientStock)
    ensures StockNonNegative(db) ==> StockNonNegative(r.next)
  {
    if id == "" then Step(Reply(InventoryReply(false, IdRequired, 0)), db)
    else if id !in db.rows then Step(Reply(InventoryReply(false, NotFound, 0)), db)
    else
      var stock := db.rows[id].stock;
      var newStock := stock + change;
      if newStock < 0 then Step(Reply(InventoryReply(false, InsufficientStock, stock)), db)
      else Step(Reply(InventoryReply(true, InventoryUpdated, newStock)), AddStock(db, id, change))
  }

  /** A product is available in quantity `q` exactly when withdrawing `q` from its inventory
      would succeed, so the check and the update agree on what "enough stock" means. */
  lemma AvailabilityMatchesInventory(db: Products, id: string, q: int)
    ensures CheckAvailability(db, id, q).available <==> UpdateInventory(db, id, -q).outcome.reply.success
  {
  }

  /** Undoing an accepted change gives back the original table, provided the stock did not
      start out negative (a negative stock can be reached through order creation). */
  lemma InventoryRoundTrip(db: Products, id: string, change: int)
    requires id in db.rows && db.rows[id].stock >= 0
    requires UpdateInventory(db, id, change).outcome.reply.success
    ensures var mid := UpdateInventory(db, id, change).next;
            UpdateInventory(mid, id, -change).outcome.reply.success &&
            UpdateInventory(mid, id, -change).next == db
  {
    var mid := UpdateInventory(db, id, change).next;
    assert mid == AddStock(db, id, change);
    assert UpdateInventory(mid, id, -change).outcome.reply.success;
    var back := UpdateInventory(mid, id, -change).next;
    assert back == AddStock(mid, id, -change);
    forall k | k in back.rows
      ensures back.rows[k] == db.rows[k]
    {
      if k == id {
        assert back.rows[k].stock == db.rows[k].stock;
      }
    }
    assert back.rows == db.rows;
  }
}

=== FILE: identity.dfy ===
/** The identity service (`UserServiceImpl`) over the `users` table. Password hashing and
    token signing are opaque: the caller supplies them as functions. The table is assumed
    to carry `UNIQUE` constraints on username and on email. */
module Identity {
  import opened Basics
  import opened Tables

  datatype User = User(username: string, email: string, passwordHash: string)

  type Users = Table<User>

  /** The business messages of the identity handlers. */
  datatype Msg =
    | FieldsRequired       // "Username, email, and password are required"
    | AlreadyExists        // "Username or email already exists"
    | Registered
    | InvalidCredentials   // "Invalid username or password"
    | LoggedIn
    | ValidUser            // "User is valid"
    | InvalidUser          // "Invalid user"
    | UserNotFound         // "User not found"
    | ProfileRetrieved
    | ProfileUpdated

  /** No two users share a username, and no two share an email. */
  ghost predicate UniqueLogins(users: Users)
  {
    forall a, b :: a in users.rows && b in users.rows && a != b ==>
      users.rows[a].username != users.rows[b].username && users.rows[a].email != users.rows[b].email
  }

  predicate UsernameTaken(users: Users, username: string)
  {
    exists id :: id in users.rows && users.rows[id].username == username
  }

  predicate EmailTaken(users: Users, email: string, except: string)
  {
    exists id :: id in users.rows && id != except && users.rows[id].email == email
  }

  // ---------------------------------------------------------------- generate_token

  const TokenExpirationHours: int := 24

  /** The signed claims of a session token: subject, expiry and issue time in seconds. */
  datatype Claims = Claims(sub: string, exp: int, iat: int)

  /** `generate_token` before signing: issued now, expiring a day later. */
  function IssueClaims(userId: string, now: int): (c: Claims)
    ensures c.sub == userId && c.iat == now
    ensures c.exp - c.iat == 86400
  {
    Claims(userId, now + TokenExpirationHours * 3600, now)
  }

  // ---------------------------------------------------------------- register

  datatype RegisterReply = RegisterReply(success: bool, message: Msg, userId: string)

  /** `register`: every field is required; the insert fails as a duplicate when the username
      or email is taken (or the fresh id collides, which the database reports the same way). */
  function Register(users: Users, username: string, email: string, password: string,
                    freshId: string, hash: string -> string): (r: Step<RegisterReply, Users>)
    ensures r.outcome.Reply?
    ensures r.outcome.reply.success <==>
              username != "" && email != "" && password != "" && freshId !in users.rows &&
              !UsernameTaken(users, username) && !EmailTaken(users, email, freshId)
    ensures !r.outcome.reply.success ==> r.next == users && r.outcome.reply.userId == ""
    ensures !r.outcome.reply.success ==>
              r.outcome.reply.message == (if username == "" || email == "" || password == "" then FieldsRequired
                                          else AlreadyExists)
    ensures r.outcome.reply.success ==>
              r.outcome.reply.userId == freshId &&
              r.next.rows == users.rows[freshId := User(username, email, hash(password))]
    ensures Valid(users) ==> Valid(r.next)
    ensures UniqueLogins(users) ==> UniqueLogins(r.next)
  {
    if username == "" || email == "" || password == "" then
      Step(Reply(RegisterReply(false, FieldsRequired, "")), users)
    else if freshId in users.rows || UsernameTaken(users, username) || EmailTaken(users, email, freshId) then
      Step(Reply(RegisterReply(false, AlreadyExists, "")), users)
    else
      Step(Reply(RegisterReply(true, Registered, freshId)),
           Insert(users, freshId, User(username, email, hash(password))))
  }

  // ---------------------------------------------------------------- login

  /** The profile a reply carries. */
  datatype Profile = Profile(userId: string, username: string, email: string)

  datatype LoginReply = LoginReply(success: bool, message: Msg, token: string, user: Option<Profile>)

  /** `SELECT ... WHERE username = $1`: the first matching row. */
  function FindByUsername(users: Users, username: string): (r: Option<string>)
    ensures r.Some? ==> r.value in users.rows && users.rows[r.value].username == username
    ensures Valid(users) && UsernameTaken(users, username) ==> r.Some?
    ensures UniqueLogins(users) && r.Some? ==>
              forall id :: id in users.rows && users.rows[id].username == username ==> id == r.value
  {
    var hits := Select(users.order, users.rows, (u: User) => u.username == username);
    if hits == [] then None else Some(hits[0])
  }

  const LoginFailure: LoginReply := LoginReply(false, InvalidCredentials, "", None)

  /** `login`: a token for the user with that username and a matching password. */
  function Login(users: Users, username: string, password: string, now: int,
                 check: (string, string) -> bool, sign: Claims -> string): (r: LoginReply)
    ensures r.success <==>
              exists id :: id in users.rows && users.rows[id].username == username &&
                           FindByUsername(users, username) == Some(id) && check(password, users.rows[id].passwordHash)
    ensures !r.success ==> r == LoginFailure
    ensures r.success ==>
              && r.user.Some? && r.user.value.username == username
              && FindByUsername(users, username) == Some(r.user.value.userId)
              && r.user.value.email == users.rows[r.user.value.userId].email
              && r.token == sign(IssueClaims(r.user.value.userId, now))
  {
    match FindByUsername(users, username)
    case None => LoginFailure
    case Some(id) =>
      var u := users.rows[id];
      if !check(password, u.passwordHash) then LoginFailure
      else LoginReply(true, LoggedIn, sign(IssueClaims(id, now)), Some(Profile(id, u.username, u.email)))
  }

  /** An unknown username and a wrong password produce the same reply, so a caller cannot
      tell which usernames exist. */
  lemma LoginFailuresAlike(users: Users, known: string, unknown: string, password: string, now: int,
                           check: (string, string) -> bool, sign: Claims -> string)
    requires Valid(users)
    requires !UsernameTaken(users, unknown)
    requires var id := FindByUsername(users, known); id.Some? && !check(password, users.rows[id.value].passwordHash)
    ensures Login(users, unknown, password, now, check, sign) == Login(users, known, password, now, check, sign)
  {
  }

  /** A user who has just registered can log in with that password (given a hash the password
      checks against), and receives a day-long token for the new id. */
  lemma RegisterThenLogin(users: Users, username: string, email: string, password: string,
                          freshId: string, now: int, hash: string -> string,
                          check: (string, string) -> bool, sign: Claims -> string)
    requires Valid(users) && UniqueLogins(users)
    requires check(password, hash(password))
    requires Register(users, username, email, password, freshId, hash).outcome.reply.success
    ensures var after := Register(users, username, email, password, freshId, hash).next;
            var r := Login(after, username, password, now, check, sign);
            && r.success
            && r.user == Some(Profile(freshId, username, email))
            && r.token == sign(Claims(freshId, now + 86400, now))
  {
    var after := Register(users, username, email, password, freshId, hash).next;
    assert after.rows[freshId].username == username;
    assert UsernameTaken(after, username);
  }

  // ---------------------------------------------------------------- get_user_profile / verify

  datatype ProfileReply = ProfileReply(success: bool, message: Msg, user: Option<Profile>)

  /** `get_user_profile`. */
  function GetUserProfile(users: Users, userId: string): (r: ProfileReply)
    ensures r.success <==> userId in users.rows
    ensures r.success <==> r.user.Some?
    ensures r.success ==> r.user.value == Profile(userId, users.rows[userId].username, users.rows[userId].email)
  {
    if userId in users.rows then
      var u := users.rows[userId];
      ProfileReply(true, ProfileRetrieved, Some(Profile(userId, u.username, u.email)))
    else ProfileReply(false, UserNotFound, None)
  }

  datatype VerifyReply = VerifyReply(valid: bool, userId: string, message: Msg)

  /** `verify`, built on `get_user_profile`. */
  function Verify(users: Users, userId: string): (r: VerifyReply)
    ensures r.valid <==> userId in users.rows
    ensures r.userId == (if r.valid then userId else "")
  {
    var p := GetUserProfile(users, userId);
    if p.success && p.user.Some? then VerifyReply(true, p.user.value.userId, ValidUser)
    else VerifyReply(false, "", InvalidUser)
  }

  /** A freshly registered id verifies. */
  lemma RegisterThenVerify(users: Users, username: string, email: string, password: string,
                           freshId: string, hash: string -> string)
    requires Register(users, username, email, password, freshId, hash).outcome.reply.success
    ensures Verify(Register(users, username, email, password, freshId, hash).next, freshId).valid
  {
  }

  // ---------------------------------------------------------------- update_user_profile

  /** `update_user_profile`: overwrites that user's email, and nothing else. An email taken
      by another user violates the unique constraint, a database fault. */
  function UpdateUserProfile(users: Users, userId: string, email: string): (r: Step<ProfileReply, Users>)
    ensures r.outcome.Reply? && r.outcome.reply.success <==> userId in users.rows && !EmailTaken(users, email, userId)
    ensures r.outcome.Fault? <==> userId in users.rows && EmailTaken(users, email, userId)
    ensures !(r.outcome.Reply? && r.outcome.reply.success) ==> r.next == users
    ensures r.outcome.Reply? && !r.outcome.reply.success ==> r.outcome.reply.message == UserNotFound
    ensures r.outcome.Reply? && r.outcome.reply.success ==>
              r.next.rows == users.rows[userId := users.rows[userId].(email := email)] &&
              r.outcome.reply.user == Some(Profile(userId, users.rows[userId].username, email))
    ensures Valid(users) ==> Valid(r.next)
    ensures UniqueLogins(users) ==> UniqueLogins(r.next)
  {
    if userId !in users.rows then Step(Reply(ProfileReply(false, UserNotFound, None)), users)
    else if EmailTaken(users, email, userId) then Step(Fault, users)
    else
      var u := users.rows[userId].(email := email);
      Step(Reply(ProfileReply(true, ProfileUpdated, Some(Profile(userId, u.username, email)))),
           Set(users, userId, u))
  }

  /** A profile read after a successful update shows the new email and the same username. */
  lemma UpdateThenGetProfile(users: Users, userId: string, email: string)
    requires var r := UpdateUserProfile(users, userId, email); r.outcome.Reply? && r.outcome.reply.success
    ensures var after := UpdateUserProfile(users, userId, email).next;
            GetUserProfile(after, userId).user == Some(Profile(userId, users.rows[userId].username, email))
  {
  }
}

=== FILE: order_service.dfy ===
/** The order orchestrator (`OrderServiceImpl`). Its store is the shared database: the
    identity and catalog collaborators answer from the same `users` and `products` tables
    that order creation and cancellation write to directly. `Ports` says which of the two
    remote collaborators can be reached; an unreachable one is an infrastructure fault. */
module OrderService {
  import opened Basics
  import opened Tables
  import opened OrderStatus
  import Pagination
  import Catalog
  import Identity

  /** One `order_items` row: the product, the quantity and the unit price captured when the
      order was created. The rows of an order are written once, at creation, so they are kept
      with the order. */
  datatype LineItem = LineItem(productId: string, quantity: int, price: int)

  datatype Order = Order(
    userId: string,
    total: int,
    status: Status,
    shippingAddress: Option<string>,
    items: seq<LineItem>)

  datatype Store = Store(users: Identity.Users, products: Catalog.Products, orders: Table<Order>)

  datatype Ports = Ports(identityUp: bool, catalogUp: bool)

  /** The business messages of the order handlers. */
  datatype Msg =
    | UserIdRequired                       // "User ID is required"
    | NoItems                              // "Order must contain at least one item"
    | UserNotFound                         // "User not found"
    | InvalidQuantity(productId: string)   // "Invalid quantity for product {}"
    | NotAvailable(productId: string)      // "Product {} not available in requested quantity"
    | ProductNotFound(productId: string)   // "Product {} not found"
    | Created
    | OrderIdRequired                      // "Order ID is required"
    | OrderNotFound                        // "Order not found"
    | Updated
    | NotOwner                             // "Order does not belong to this user"
    | AlreadyCancelled                     // "Order is already cancelled"
    | CannotCancelDelivered                // "Cannot cancel delivered order"
    | CancelledOk
    | Retrieved
    | Listed

  // ---------------------------------------------------------------- sums

  /** The order total: the sum of unit price times quantity. */
  function Total(lines: seq<LineItem>): int
  {
    if lines == [] then 0 else lines[0].price * lines[0].quantity + Total(lines[1..])
  }

  /** How many units of one product a list of line items holds. */
  function Quantity(lines: seq<LineItem>, pid: string): int
  {
    if lines == [] then 0
    else (if lines[0].productId == pid then lines[0].quantity else 0) + Quantity(lines[1..], pid)
  }

  /** Every stored order has positive quantities and a total equal to the sum of its lines. */
  ghost predicate Consistent(s: Store)
  {
    && Valid(s.users) && Valid(s.products) && Valid(s.orders)
    && forall id :: id in s.orders.rows ==> WellFormed(s.orders.rows[id])
  }

  ghost predicate WellFormed(o: Order)
  {
    && o.total == Total(o.items)
    && forall i :: 0 <= i < |o.items| ==> o.items[i].quantity > 0
  }

  // ---------------------------------------------------------------- stock movements

  /** The per-item `stock_quantity - quantity` updates of `create_order`, one after another. */
  function Withdraw(db: Catalog.Products, lines: seq<LineItem>): (r: Catalog.Products)
    ensures r.order == db.order && r.rows.Keys == db.rows.Keys
    ensures forall k :: k in r.rows ==> r.rows[k] == db.rows[k].(stock := db.rows[k].stock - Quantity(lines, k))
    decreases |lines|
  {
    if lines == [] then db
    else Withdraw(Catalog.AddStock(db, lines[0].productId, -lines[0].quantity), lines[1..])
  }

  /** The per-item `stock_quantity + quantity` updates of `cancel_order`. */
  function Restock(db: Catalog.Products, lines: seq<LineItem>): (r: Catalog.Products)
    ensures r.order == db.order && r.rows.Keys == db.rows.Keys
    ensures forall k :: k in r.rows ==> r.rows[k] == db.rows[k].(stock := db.rows[k].stock + Quantity(lines, k))
    decreases |lines|
  {
    if lines == [] then db
    else Restock(Catalog.AddStock(db, lines[0].productId, lines[0].quantity), lines[1..])
  }

  /** Cancellation's restock is the exact inverse of creation's withdrawal. */
  lemma RestockUndoesWithdraw(db: Catalog.Products, lines: seq<LineItem>)
    ensures Restock(Withdraw(db, lines), lines) == db
  {
    var back := Restock(Withdraw(db, lines), lines);
    forall k | k in back.rows
      ensures back.rows[k] == db.rows[k]
    {
    }
    assert back.rows == db.rows;
  }

  // ---------------------------------------------------------------- read model

  /** An `OrderItem` as a reply carries it: the product's current display name (empty when
      the catalog no longer has it), and the captured price. */
  datatype ItemView = ItemView(productId: string, productName: string, quantity: int, unitPrice: int, subtotal: int)

  datatype OrderView = OrderView(
    orderId: string,
    userId: string,
    items: seq<ItemView>,
    total: int,
    status: Status,
    shippingAddress: string)

  function NameOf(products: Catalog.Products, pid: string): string
  {
    if pid in products.rows then products.rows[pid].name else ""
  }

  /** `db_order_to_proto`: the stored order with item names resolved through the catalog. */
  function View(id: string, o: Order, products: Catalog.Products): (v: OrderView)
    ensures v.orderId == id && v.userId == o.userId && v.status == o.status
    ensures v.total == o.total && v.shippingAddress == OrEmpty(o.shippingAddress)
    ensures |v.items| == |o.items|
    ensures forall i :: 0 <= i < |o.items| ==>
              && v.items[i].productId == o.items[i].productId
              && v.items[i].quantity == o.items[i].quantity
              && v.items[i].unitPrice == o.items[i].price
              && v.items[i].subtotal == o.items[i].price * o.items[i].quantity
              && v.items[i].productName ==
                   (if o.items[i].productId in products.rows then products.rows[o.items[i].productId].name else "")
  {
    var items := seq(|o.items|, i requires 0 <= i < |o.items| =>
      var l := o.items[i];
      ItemView(l.productId, NameOf(products, l.productId), l.quantity, l.price, l.price * l.quantity));
    OrderView(id, o.userId, items, o.total, o.status, OrEmpty(o.shippingAddress))
  }

  /** Prices are a snapshot: whatever the catalog says now, an order reads back with the unit
      prices and total captured when it was created. */
  lemma PriceSnapshot(id: string, o: Order, before: Catalog.Products, after: Catalog.Products)
    ensures View(id, o, before).total == View(id, o, after).total
    ensures forall i :: 0 <= i < |o.items| ==>
              View(id, o, before).items[i].unitPrice == View(id, o, after).items[i].unitPrice
  {
  }

  function Views(ids: seq<string>, orders: Table<Order>, products: Catalog.Products): (vs: seq<OrderView>)
    requires forall i :: 0 <= i < |ids| ==> ids[i] in orders.rows
    ensures |vs| == |ids|
    ensures forall i :: 0 <= i < |ids| ==> vs[i] == View(ids[i], orders.rows[ids[i]], products)
  {
    seq(|ids|, i requires 0 <= i < |ids| => View(ids[i], orders.rows[ids[i]], products))
  }

  // ---------------------------------------------------------------- create_order

  datatype RequestItem = RequestItem(productId: string, quantity: int)

  datatype CreateRequest = CreateRequest(userId: string, items: seq<RequestItem>, shippingAddress: string)

  datatype CreateReply = CreateReply(success: bool, message: Msg, orderId: string, order: Option<OrderView>)

  /** An item survives `create_order`'s loop: positive quantity, available in that quantity,
      and priced. */
  predicate ItemPasses(products: Catalog.Products, it: RequestItem)
  {
    && it.quantity > 0
    && Catalog.CheckAvailability(products, it.productId, it.quantity).available
    && it.productId in products.rows
  }

  /** The message for an item that does not pass, from the first check it fails. */
  function FailureOf(products: Catalog.Products, it: RequestItem): Msg
  {
    if it.quantity <= 0 then InvalidQuantity(it.productId)
    else if !Catalog.CheckAvailability(products, it.productId, it.quantity).available then NotAvailable(it.productId)
    else ProductNotFound(it.productId)
  }

  /** The line item an accepted request item becomes, at the price read during validation. */
  function Line(products: Catalog.Products, it: RequestItem): LineItem
    requires it.productId in products.rows
  {
    LineItem(it.productId, it.quantity, products.rows[it.productId].price)
  }

  /** The result of the validation loop: the first rejected item, an unreachable catalog, or
      the validated line items. */
  datatype Check = Reject(at: nat, msg: Msg) | Unreachable | Proceed(lines: seq<LineItem>)

  /** `create_order`'s loop over the items: quantity, then availability through the catalog
      service, then the price read straight from the `products` table. */
  function ValidateItems(products: Catalog.Products, items: seq<RequestItem>, catalogUp: bool): (c: Check)
    ensures c.Proceed? <==> (items == [] || catalogUp) && forall i :: 0 <= i < |items| ==> ItemPasses(products, items[i])
    ensures c.Proceed? ==>
              |c.lines| == |items| && forall i :: 0 <= i < |items| ==> c.lines[i] == Line(products, items[i])
    ensures c.Reject? ==>
              && c.at < |items|
              && (forall i :: 0 <= i < c.at ==> ItemPasses(products, items[i]))
              && !ItemPasses(products, items[c.at])
              && c.msg == FailureOf(products, items[c.at])
    ensures c.Unreachable? <==> !catalogUp && items != [] && items[0].quantity > 0
    decreases |items|
  {
    if items == [] then Proceed([])
    else
      var it := items[0];
      if it.quantity <= 0 then Reject(0, InvalidQuantity(it.productId))
      else if !catalogUp then Unreachable
      else if !Catalog.CheckAvailability(products, it.productId, it.quantity).available then Reject(0, NotAvailable(it.productId))
      else if it.productId !in products.rows then Reject(0, ProductNotFound(it.productId))
      else match ValidateItems(products, items[1..], catalogUp)
        case Reject(at, msg) => Reject(at + 1, msg)
        case Unreachable => Unreachable
        case Proceed(lines) => Proceed([Line(products, it)] + lines)
  }

  /** Everything `create_order` needs to commit. */
  ghost predicate CreateAdmissible(s: Store, req: CreateRequest, freshId: string, ports: Ports)
  {
    && req.userId != "" && req.items != []
    && ports.identityUp && ports.catalogUp
    && req.userId in s.users.rows
    && (forall i :: 0 <= i < |req.items| ==> ItemPasses(s.products, req.items[i]))
    && freshId !in s.orders.rows
  }

  predicate Succeeded<R, S>(r: Step<R, S>, ok: R -> bool)
  {
    r.outcome.Reply? && ok(r.outcome.reply)
  }

  /** `create_order`. Every check runs before anything is written; only then is the order
      inserted as pending with its line items, and each item's quantity taken off stock. */
  function CreateOrder(s: Store, req: CreateRequest, freshId: string, ports: Ports): (r: Step<CreateReply, Store>)
    ensures Succeeded(r, (c: CreateReply) => c.success) <==> CreateAdmissible(s, req, freshId, ports)
    ensures req.userId == "" ==> r == Step(Reply(CreateReply(false, UserIdRequired, "", None)), s)
    ensures req.userId != "" && req.items == [] ==> r == Step(Reply(CreateReply(false, NoItems, "", None)), s)
    ensures req.userId != "" && req.items != [] && ports.identityUp && req.userId !in s.users.rows ==>
              r == Step(Reply(CreateReply(false, UserNotFound, "", None)), s)
    ensures !Succeeded(r, (c: CreateReply) => c.success) ==> r.next == s
    ensures r.outcome.Reply? && !r.outcome.reply.success ==>
              r.outcome.reply.orderId == "" && r.outcome.reply.order == None
    ensures Succeeded(r, (c: CreateReply) => c.success) ==>
              && freshId in r.next.orders.rows
              && var o := r.next.orders.rows[freshId];
              && o.userId == req.userId
              && o.status == Pending
              && o.shippingAddress == NullIfEmpty(req.shippingAddress)
              && |o.items| == |req.items|
              && (forall i :: 0 <= i < |req.items| ==>
                    && req.items[i].productId in s.products.rows
                    && o.items[i] == Line(s.products, req.items[i]))
              && o.total == Total(o.items)
              && r.next.orders.rows == s.orders.rows[freshId := o]
              && r.next.orders.order == s.orders.order + [freshId]
              && r.next.products == Withdraw(s.products, o.items)
              && r.next.users == s.users
              && r.outcome.reply.orderId == freshId
              && r.outcome.reply.order == Some(View(freshId, o, r.next.products))
    ensures Consistent(s) ==> Consistent(r.next)
  {
    if req.userId == "" then Step(Reply(CreateReply(false, UserIdRequired, "", None)), s)
    else if req.items == [] then Step(Reply(CreateReply(false, NoItems, "", None)), s)
    else if !ports.identityUp then Step(Fault, s)
    else if !Identity.Verify(s.users, req.userId).valid then Step(Reply(CreateReply(false, UserNotFound, "", None)), s)
    else match ValidateItems(s.products, req.items, ports.catalogUp)
      case Reject(_, msg) => Step(Reply(CreateReply(false, msg, "", None)), s)
      case Unreachable => Step(Fault, s)
      case Proceed(lines) =>
        if freshId in s.orders.rows then Step(Fault, s)
        else Commit(s, req, freshId, lines)
  }

  /** The write half of `create_order`, once every item has passed: the order is inserted as
      the newest, pending, with the validated lines, and each line's quantity leaves stock. */
  function Commit(s: Store, req: CreateRequest, freshId: string, lines: seq<LineItem>): (r: Step<CreateReply, Store>)
    requires freshId !in s.orders.rows
    requires forall i :: 0 <= i < |lines| ==> lines[i].quantity > 0
    ensures r.outcome.Reply? && r.outcome.reply.success
    ensures freshId in r.next.orders.rows
    ensures var o := r.next.orders.rows[freshId];
            && o == Order(req.userId, Total(lines), Pending, NullIfEmpty(req.shippingAddress), lines)
            && r.next.orders.rows == s.orders.rows[freshId := o]
            && r.next.orders.order == s.orders.order + [freshId]
            && r.next.products == Withdraw(s.products, lines)
            && r.next.users == s.users
            && r.outcome.reply.orderId == freshId
            && r.outcome.reply.order == Some(View(freshId, o, r.next.products))
    ensures Consistent(s) ==> Consistent(r.next)
  {
    var o := Order(req.userId, Total(lines), Pending, NullIfEmpty(req.shippingAddress), lines);
    var next := s.(orders := Insert(s.orders, freshId, o), products := Withdraw(s.products, lines));
    Step(Reply(CreateReply(true, Created, freshId, Some(View(freshId, o, next.products)))), next)
  }

  /** `create_order` faults exactly when a collaborator it reaches is down, or when the fresh
      order id collides: the identity service after the two input checks; the catalog at the
      first item, provided that item's quantity is positive; the insert once every item has
      passed. Every other failure is a `success = false` reply. */
  lemma CreateFaults(s: Store, req: CreateRequest, freshId: string, ports: Ports)
    ensures CreateOrder(s, req, freshId, ports).outcome.Fault? <==>
              && req.userId != "" && req.items != []
              && (|| !ports.identityUp
                  || (&& req.userId in s.users.rows
                      && (|| (!ports.catalogUp && req.items[0].quantity > 0)
                          || (&& ports.catalogUp
                              && (forall i :: 0 <= i < |req.items| ==> ItemPasses(s.products, req.items[i]))
                              && freshId in s.orders.rows))))
  {
    if req.userId != "" && req.items != [] && ports.identityUp && req.userId in s.users.rows {
      var c := ValidateItems(s.products, req.items, ports.catalogUp);
      if ports.catalogUp {
        assert c.Proceed? <==> forall i :: 0 <= i < |req.items| ==> ItemPasses(s.products, req.items[i]);
      }
    }
  }

  /** The item checks stop at the first failing item and report why it failed. */
  lemma CreateReportsFirstBadItem(s: Store, req: CreateRequest, freshId: string, ports: Ports, k: nat)
    requires req.userId != "" && ports.identityUp && ports.catalogUp && req.userId in s.users.rows
    requires k < |req.items|
    requires forall i :: 0 <= i < k ==> ItemPasses(s.products, req.items[i])
    requires !ItemPasses(s.products, req.items[k])
    ensures CreateOrder(s, req, freshId, ports) ==
              Step(Reply(CreateReply(false, FailureOf(s.products, req.items[k]), "", None)), s)
  {
    var c := ValidateItems(s.products, req.items, true);
    assert c.Reject?;
    assert c.at >= k;
    assert c.at <= k;
  }

  /** Creating an order takes exactly the requested units of each product off its stock. */
  lemma CreateWithdrawsRequested(s: Store, req: CreateRequest, freshId: string, ports: Ports, pid: string)
    requires CreateAdmissible(s, req, freshId, ports)
    requires pid in s.products.rows
    ensures var next := CreateOrder(s, req, freshId, ports).next;
            && pid in next.products.rows
            && next.products.rows[pid].stock == s.products.rows[pid].stock - Requested(req.items, pid)
  {
    var next := CreateOrder(s, req, freshId, ports).next;
    var o := next.orders.rows[freshId];
    LinesCarryRequest(s.products, req.items, o.items, pid);
  }

  /** How many units of one product a request asks for, over all its items. */
  function Requested(items: seq<RequestItem>, pid: string): int
  {
    if items == [] then 0
    else (if items[0].productId == pid then items[0].quantity else 0) + Requested(items[1..], pid)
  }

  lemma {:induction false} LinesCarryRequest(products: Catalog.Products, items: seq<RequestItem>, lines: seq<LineItem>, pid: string)
    requires |lines| == |items|
    requires forall i :: 0 <= i < |items| ==> items[i].productId in products.rows && lines[i] == Line(products, items[i])
    ensures Quantity(lines, pid) == Requested(items, pid)
  {
    if items != [] {
      LinesCarryRequest(products, items[1..], lines[1..], pid);
    }
  }

  /** The worked example: one item of quantity 2 at price 999 with enough stock becomes a
      pending order totalling 1998, and the product's stock falls by 2. */
  lemma CreateSingleItem(s: Store, user: string, pid: string, freshId: string)
    requires user != "" && user in s.users.rows
    requires pid != "" && pid in s.products.rows
    requires s.products.rows[pid].price == 999 && s.products.rows[pid].stock >= 2
    requires freshId !in s.orders.rows
    ensures var r := CreateOrder(s, CreateRequest(user, [RequestItem(pid, 2)], "A"), freshId, Ports(true, true));
            && r.outcome.Reply? && r.outcome.reply.success
            && r.next.orders.rows[freshId].total == 1998
            && r.next.orders.rows[freshId].status == Pending
            && r.next.orders.rows[freshId].shippingAddress == Some("A")
            && r.next.products.rows[pid].stock == s.products.rows[pid].stock - 2
  {
    var req := CreateRequest(user, [RequestItem(pid, 2)], "A");
    assert ItemPasses(s.products, req.items[0]);
    var o := CreateOrder(s, req, freshId, Ports(true, true)).next.orders.rows[freshId];
    assert o.items == [LineItem(pid, 2, 999)];
    assert Total(o.items) == 1998;
    assert Quantity(o.items, pid) == 2;
  }

  /** Availability is checked item by item, so a product listed twice can be sold beyond its
      stock: with 3 in stock, two items of 2 both pass and the stock ends at -1. */
  lemma DuplicateItemsOversell(s: Store, user: string, pid: string, freshId: string)
    requires user != "" && user in s.users.rows
    requires pid != "" && pid in s.products.rows && s.products.rows[pid].stock == 3
    requires freshId !in s.orders.rows
    ensures var r := CreateOrder(s, CreateRequest(user, [RequestItem(pid, 2), RequestItem(pid, 2)], ""), freshId, Ports(true, true));
            && r.outcome.Reply? && r.outcome.reply.success
            && r.next.products.rows[pid].stock == -1
  {
    var req := CreateRequest(user, [RequestItem(pid, 2), RequestItem(pid, 2)], "");
    assert ItemPasses(s.products, req.items[0]) && ItemPasses(s.products, req.items[1]);
    var o := CreateOrder(s, req, freshId, Ports(true, true)).next.orders.rows[freshId];
    var line := Line(s.products, RequestItem(pid, 2));
    assert line.productId == pid && line.quantity == 2;
    assert o.items == [line, line];
    assert o.items[1..] == [line] && o.items[1..][1..] == [];
    assert Quantity(o.items[1..], pid) == 2;
    assert Quantity(o.items, pid) == 4;
  }

  // ---------------------------------------------------------------- cancel_order

  datatype CancelReply = CancelReply(success: bool, message: Msg)

  /** `cancel_order`: the order must exist, belong to the caller when a caller is named, and
      be neither cancelled nor delivered; then every line's quantity goes back on stock and
      the order is cancelled. A rejection changes nothing. */
  function CancelOrder(s: Store, orderId: string, userId: string): (r: Step<CancelReply, Store>)
    ensures r.outcome.Reply?
    ensures r.outcome.reply.success <==>
              && orderId != "" && orderId in s.orders.rows
              && (userId == "" || userId == s.orders.rows[orderId].userId)
              && !Terminal(s.orders.rows[orderId].status)
    ensures !r.outcome.reply.success ==> r.next == s
    ensures !r.outcome.reply.success ==>
              r.outcome.reply.message == (if orderId == "" then OrderIdRequired
                                          else if orderId !in s.orders.rows then OrderNotFound
                                          else if userId != "" && userId != s.orders.rows[orderId].userId then NotOwner
                                          else if s.orders.rows[orderId].status == Cancelled then AlreadyCancelled
                                          else CannotCancelDelivered)
    ensures r.outcome.reply.success ==>
              var o := s.orders.rows[orderId];
              && r.next.orders.rows == s.orders.rows[orderId := o.(status := Cancelled)]
              && r.next.orders.order == s.orders.order
              && r.next.products == Restock(s.products, o.items)
              && r.next.users == s.users
    ensures Consistent(s) ==> Consistent(r.next)
  {
    if orderId == "" then Step(Reply(CancelReply(false, OrderIdRequired)), s)
    else if orderId !in s.orders.rows then Step(Reply(CancelReply(false, OrderNotFound)), s)
    else
      var o := s.orders.rows[orderId];
      if userId != "" && o.userId != userId then Step(Reply(CancelReply(false, NotOwner)), s)
      else if o.status == Cancelled then Step(Reply(CancelReply(false, AlreadyCancelled)), s)
      else if o.status == Delivered then Step(Reply(CancelReply(false, CannotCancelDelivered)), s)
      else
        var next := s.(orders := Set(s.orders, orderId, o.(status := Cancelled)),
                       products := Restock(s.products, o.items));
        Step(Reply(CancelReply(true, CancelledOk)), next)
  }

  /** Cancelling a freshly created order puts the stock back exactly as it was, and a second
      cancellation is refused without touching stock. */
  lemma CreateThenCancel(s: Store, req: CreateRequest, freshId: string, ports: Ports)
    requires freshId != ""
    requires CreateAdmissible(s, req, freshId, ports)
    ensures var created := CreateOrder(s, req, freshId, ports).next;
            var once := CancelOrder(created, freshId, req.userId);
            var twice := CancelOrder(once.next, freshId, req.userId);
            && once.outcome.reply.success
            && once.next.products == s.products
            && once.next.orders.rows[freshId].status == Cancelled
            && twice.outcome == Reply(CancelReply(false, AlreadyCancelled))
            && twice.next == once.next
  {
    var created := CreateOrder(s, req, freshId, ports).next;
    var o := created.orders.rows[freshId];
    assert o.status == Pending && o.userId == req.userId;
    assert created.products == Withdraw(s.products, o.items);
    RestockUndoesWithdraw(s.products, o.items);
    var once := CancelOrder(created, freshId, req.userId);
    assert once.outcome.reply.success;
    assert once.next.products == Restock(created.products, o.items);
    assert once.next.orders.rows[freshId].status == Cancelled;
  }

  // ---------------------------------------------------------------- update_order

  datatype UpdateReply = UpdateReply(success: bool, message: Msg, order: Option<OrderView>)

  /** `update_order`: overwrites the status (an unknown enumerator value reads as pending)
      and the shipping address (an empty one is stored as NULL, clearing it), from any prior
      status. The order is read back afterwards through the catalog, so an unreachable catalog
      is a fault reported after the write has happened. */
  function UpdateOrder(s: Store, orderId: string, status: int, address: string, ports: Ports): (r: Step<UpdateReply, Store>)
    ensures r.outcome.Reply? && !r.outcome.reply.success ==> r.next == s && r.outcome.reply.order == None
    ensures r.outcome.Reply? && !r.outcome.reply.success ==>
              r.outcome.reply.message == (if orderId == "" then OrderIdRequired else OrderNotFound)
    ensures r.outcome.Fault? <==> orderId != "" && orderId in s.orders.rows && !ports.catalogUp
    ensures orderId == "" || orderId !in s.orders.rows ==> r.next == s && r.outcome.Reply?
    ensures orderId != "" && orderId in s.orders.rows ==>
              var o := s.orders.rows[orderId];
              var o' := o.(status := FromWire(status), shippingAddress := NullIfEmpty(address));
              && r.next == s.(orders := Set(s.orders, orderId, o'))
              && (r.outcome.Reply? ==> r.outcome.reply == UpdateReply(true, Updated, Some(View(orderId, o', s.products))))
    ensures Consistent(s) ==> Consistent(r.next)
  {
    if orderId == "" then Step(Reply(UpdateReply(false, OrderIdRequired, None)), s)
    else if orderId !in s.orders.rows then Step(Reply(UpdateReply(false, OrderNotFound, None)), s)
    else
      var o := s.orders.rows[orderId].(status := FromWire(status), shippingAddress := NullIfEmpty(address));
      var next := s.(orders := Set(s.orders, orderId, o));
      if !ports.catalogUp then Step(Fault, next)
      else Step(Reply(UpdateReply(true, Updated, Some(View(orderId, o, next.products)))), next)
  }

  /** No transition check: even a cancelled order can be set back to pending, after which a
      cancellation restocks its items a second time. */
  lemma ReopenedOrderRestocksTwice(s: Store, orderId: string, pid: string)
    requires orderId != "" && orderId in s.orders.rows
    requires s.orders.rows[orderId].status == Cancelled
    requires pid in s.products.rows
    ensures var reopened := UpdateOrder(s, orderId, ToWire(Pending), "", Ports(true, true));
            var again := CancelOrder(reopened.next, orderId, "");
            && reopened.outcome.reply.success
            && again.outcome.reply.success
            && again.next.products.rows[pid].stock ==
                 s.products.rows[pid].stock + Quantity(s.orders.rows[orderId].items, pid)
  {
  }

  /** An empty shipping address in an update clears the stored address. */
  lemma UpdateClearsAddress(s: Store, orderId: string, status: int, ports: Ports)
    requires orderId != "" && orderId in s.orders.rows
    ensures UpdateOrder(s, orderId, status, "", ports).next.orders.rows[orderId].shippingAddress == None
  {
  }

  // ---------------------------------------------------------------- get_order

  datatype GetReply = GetReply(success: bool, message: Msg, order: Option<OrderView>)

  /** `get_order`. */
  function GetOrder(s: Store, orderId: string, ports: Ports): (r: Outcome<GetReply>)
    ensures r.Fault? <==> orderId != "" && orderId in s.orders.rows && !ports.catalogUp
    ensures r.Reply? ==> (r.reply.success <==> orderId != "" && orderId in s.orders.rows)
    ensures r.Reply? && r.reply.success ==> r.reply.order == Some(View(orderId, s.orders.rows[orderId], s.products))
    ensures r.Reply? && !r.reply.success ==>
              r.reply.order == None && r.reply.message == (if orderId == "" then OrderIdRequired else OrderNotFound)
  {
    if orderId == "" then Reply(GetReply(false, OrderIdRequired, None))
    else if orderId !in s.orders.rows then Reply(GetReply(false, OrderNotFound, None))
    else if !ports.catalogUp then Fault
    else Reply(GetReply(true, Retrieved, Some(View(orderId, s.orders.rows[orderId], s.products))))
  }

  /** The order a successful create replies with is the order `get_order` reads back. */
  lemma CreateThenGet(s: Store, req: CreateRequest, freshId: string, ports: Ports)
    requires freshId != "" && CreateAdmissible(s, req, freshId, ports)
    ensures var r := CreateOrder(s, req, freshId, ports);
            var g := GetOrder(r.next, freshId, ports);
            && g.Reply? && g.reply.success
            && g.reply.order == r.outcome.reply.order
  {
  }

  // ---------------------------------------------------------------- list_orders / get_orders_by_user

  datatype ListReply = ListReply(success: bool, message: Msg, orders: seq<OrderView>, totalCount: nat)

  /** The status filter: value 0 lists every order; any other value lists the orders whose
      status is that value read through `FromWire` (so an unknown value filters on pending). */
  function StatusFilter(status: int): Order -> bool
  {
    (o: Order) => status == 0 || o.status == FromWire(status)
  }

  /** One page, newest first, of the orders a filter keeps, with the filter's total count.
      Rendering a non-empty page goes through the catalog. */
  function Page(s: Store, keep: Order -> bool, page: int, pageSize: int, ports: Ports): (r: Outcome<ListReply>)
    ensures r.Reply? ==>
              var w := Pagination.Normalize(page, pageSize);
              var all := Where(s.orders, keep);
              var listed := r.reply.orders;
              && r.reply.success && r.reply.totalCount == Count(s.orders, keep)
              && |listed| == (if w.offset >= |all| then 0 else Min(w.size, |all| - w.offset))
              && (forall v :: v in listed ==>
                    v.orderId in s.orders.rows && keep(s.orders.rows[v.orderId]) &&
                    v == View(v.orderId, s.orders.rows[v.orderId], s.products))
              && forall i :: 0 <= i < |listed| ==> w.offset + i < |all| && listed[i].orderId == all[w.offset + i]
    ensures r.Fault? <==> !ports.catalogUp && Pagination.Normalize(page, pageSize).offset < |Where(s.orders, keep)|
  {
    var w := Pagination.Normalize(page, pageSize);
    var ids := Pagination.Slice(Where(s.orders, keep), w.offset, w.size);
    if ids != [] && !ports.catalogUp then Fault
    else Reply(ListReply(true, Listed, Views(ids, s.orders, s.products), Count(s.orders, keep)))
  }

  /** `list_orders`. */
  function ListOrders(s: Store, page: int, pageSize: int, status: int, ports: Ports): (r: Outcome<ListReply>)
    ensures r.Reply? ==> r.reply.success
    ensures r.Reply? ==> r.reply.totalCount == |set id | id in s.orders.rows &&
                                                (status == 0 || s.orders.rows[id].status == FromWire(status))|
    ensures r.Reply? && status != 0 ==> forall v :: v in r.reply.orders ==> v.status == FromWire(status)
    ensures r.Reply? ==>
              var w := Pagination.Normalize(page, pageSize);
              var all := Where(s.orders, StatusFilter(status));
              && r.reply.totalCount == Count(s.orders, StatusFilter(status))
              && |r.reply.orders| == (if w.offset >= |all| then 0 else Min(w.size, |all| - w.offset))
              && forall i :: 0 <= i < |r.reply.orders| ==> w.offset + i < |all| && r.reply.orders[i].orderId == all[w.offset + i]
    ensures r.Reply? ==> forall v :: v in r.reply.orders ==>
              v.orderId in s.orders.rows && v == View(v.orderId, s.orders.rows[v.orderId], s.products)
    ensures r.Fault? <==>
              !ports.catalogUp && Pagination.Normalize(page, pageSize).offset < |Where(s.orders, StatusFilter(status))|
  {
    var keep := StatusFilter(status);
    var r := Page(s, keep, page, pageSize, ports);
    var meant := set id | id in s.orders.rows && (status == 0 || s.orders.rows[id].status == FromWire(status));
    CountIs(s.orders, keep, meant);
    r
  }

  /** With status value 0 the count is every order, whatever their statuses. */
  lemma ListAllCountsEverything(s: Store, page: int, pageSize: int, ports: Ports)
    requires ListOrders(s, page, pageSize, 0, ports).Reply?
    ensures ListOrders(s, page, pageSize, 0, ports).reply.totalCount == |s.orders.rows|
  {
    CountAll(s.orders, StatusFilter(0));
  }

  /** The total count locates the last page: paging through it reaches every matching
      order, since the page the count names as the last one is non-empty and the page after
      it is empty. */
  lemma CountLocatesLastPage(s: Store, status: int, pageSize: int, ports: Ports, n: nat)
    requires Valid(s.orders) && ports.catalogUp && 1 <= pageSize <= Pagination.MaxPageSize
    requires n == ListOrders(s, 1, pageSize, status, ports).reply.totalCount
    ensures var last := if n == 0 then 1 else (n - 1) / pageSize + 1;
            && (n > 0 ==> |ListOrders(s, last, pageSize, status, ports).reply.orders| > 0)
            && |ListOrders(s, last + 1, pageSize, status, ports).reply.orders| == 0
  {
    CountIsLength(s, status, pageSize, ports);
    PageByLength(s, status, pageSize, ports, n);
  }

  /** The reported count is the length of the filtered newest-first result. */
  lemma CountIsLength(s: Store, status: int, pageSize: int, ports: Ports)
    requires Valid(s.orders) && ports.catalogUp && 1 <= pageSize <= Pagination.MaxPageSize
    ensures ListOrders(s, 1, pageSize, status, ports).reply.totalCount == |Where(s.orders, StatusFilter(status))|
  {
    WhereCount(s.orders, StatusFilter(status));
    ListedSlice(s, 1, pageSize, status, ports);
  }

  /** The last page by a result's length is non-empty and the page after it is empty. */
  lemma PageByLength(s: Store, status: int, pageSize: int, ports: Ports, n: nat)
    requires ports.catalogUp && 1 <= pageSize <= Pagination.MaxPageSize
    requires n == |Where(s.orders, StatusFilter(status))|
    ensures var last := if n == 0 then 1 else (n - 1) / pageSize + 1;
            && (n > 0 ==> |ListOrders(s, last, pageSize, status, ports).reply.orders| > 0)
            && |ListOrders(s, last + 1, pageSize, status, ports).reply.orders| == 0
  {
    var last := if n == 0 then 1 else (n - 1) / pageSize + 1;
    if n > 0 {
      LastPageListed(s, status, pageSize, ports, n, last);
    }
    PastLastPageListed(s, status, pageSize, ports, n, last);
  }

  lemma LastPageListed(s: Store, status: int, pageSize: int, ports: Ports, n: nat, last: int)
    requires ports.catalogUp && 1 <= pageSize <= Pagination.MaxPageSize
    requires n == |Where(s.orders, StatusFilter(status))| && n > 0
    requires last == (n - 1) / pageSize + 1
    ensures |ListOrders(s, last, pageSize, status, ports).reply.orders| > 0
  {
    var all := Where(s.orders, StatusFilter(status));
    Pagination.LastPage(all, pageSize);
    ListedSlice(s, last, pageSize, status, ports);
  }

  lemma PastLastPageListed(s: Store, status: int, pageSize: int, ports: Ports, n: nat, last: int)
    requires ports.catalogUp && 1 <= pageSize <= Pagination.MaxPageSize
    requires n == |Where(s.orders, StatusFilter(status))|
    requires last == if n == 0 then 1 else (n - 1) / pageSize + 1
    ensures |ListOrders(s, last + 1, pageSize, status, ports).reply.orders| == 0
  {
    var all := Where(s.orders, StatusFilter(status));
    Pagination.LastPage(all, pageSize);
    ListedSlice(s, last + 1, pageSize, status, ports);
  }

  /** With the catalog reachable, a listing replies with the count and exactly the slice of
      the filtered rows that its normalised page names. */
  lemma ListedSlice(s: Store, page: int, pageSize: int, status: int, ports: Ports)
    requires ports.catalogUp && 1 <= pageSize <= Pagination.MaxPageSize
    ensures var r := ListOrders(s, page, pageSize, status, ports);
            var all := Where(s.orders, StatusFilter(status));
            && r.Reply?
            && r.reply.totalCount == Count(s.orders, StatusFilter(status))
            && |r.reply.orders| == |Pagination.Slice(all, Pagination.Normalize(page, pageSize).offset, pageSize)|
  {
  }

  /** Pending's own value is 0, which means "every status": asking for it counts the orders
      of every status, more than the pending ones as soon as one order is not pending. */
  lemma PendingFilterListsAll(s: Store, page: int, pageSize: int, ports: Ports, other: string)
    requires other in s.orders.rows && s.orders.rows[other].status != Pending
    requires ListOrders(s, page, pageSize, ToWire(Pending), ports).Reply?
    ensures ListOrders(s, page, pageSize, ToWire(Pending), ports).reply.totalCount >
              |set id | id in s.orders.rows && s.orders.rows[id].status == Pending|
  {
    assert ToWire(Pending) == 0;
    ListAllCountsEverything(s, page, pageSize, ports);
    var pending := set id | id in s.orders.rows && s.orders.rows[id].status == Pending;
    assert other !in pending && other in s.orders.rows.Keys;
    var rest := s.orders.rows.Keys - pending;
    assert other in rest;
    assert s.orders.rows.Keys == pending + rest && pending * rest == {};
    assert |rest| >= |{other}|;
  }

  /** Any value outside the six reads as pending, so pending orders are listed on their own
      by sending such a value (6, say), though never by Pending's own value. */
  lemma OutOfRangeFilterListsPending(s: Store, page: int, pageSize: int, ports: Ports)
    requires ListOrders(s, page, pageSize, 6, ports).Reply?
    ensures var r := ListOrders(s, page, pageSize, 6, ports).reply;
            && r.totalCount == |set id | id in s.orders.rows && s.orders.rows[id].status == Pending|
            && forall v :: v in r.orders ==> v.status == Pending
  {
    assert FromWire(6) == Pending;
    var pending := set id | id in s.orders.rows && s.orders.rows[id].status == Pending;
    CountIs(s.orders, StatusFilter(6), pending);
    assert ListOrders(s, page, pageSize, 6, ports) == Page(s, StatusFilter(6), page, pageSize, ports);
  }

  /** The user filter: the orders placed by `userId`. */
  function ByUser(userId: string): Order -> bool
  {
    (o: Order) => o.userId == userId
  }

  /** `get_orders_by_user`: a user id is required; then one page, newest first, of that
      user's orders, rendered through the catalog when the page is non-empty. */
  function GetOrdersByUser(s: Store, userId: string, page: int, pageSize: int, ports: Ports): (r: Outcome<ListReply>)
    ensures userId == "" ==> r == Reply(ListReply(false, UserIdRequired, [], 0))
    ensures userId != "" && r.Reply? ==>
              && r.reply.success
              && r.reply.totalCount == |set id | id in s.orders.rows && s.orders.rows[id].userId == userId|
              && forall v :: v in r.reply.orders ==> v.userId == userId
    ensures userId != "" && r.Reply? ==>
              var w := Pagination.Normalize(page, pageSize);
              var all := Where(s.orders, ByUser(userId));
              && |r.reply.orders| == (if w.offset >= |all| then 0 else Min(w.size, |all| - w.offset))
              && (forall i :: 0 <= i < |r.reply.orders| ==>
                    w.offset + i < |all| && r.reply.orders[i].orderId == all[w.offset + i])
              && forall v :: v in r.reply.orders ==>
                    v.orderId in s.orders.rows && v == View(v.orderId, s.orders.rows[v.orderId], s.products)
    ensures r.Fault? <==>
              userId != "" && !ports.catalogUp
              && Pagination.Normalize(page, pageSize).offset < |Where(s.orders, ByUser(userId))|
  {
    if userId == "" then Reply(ListReply(false, UserIdRequired, [], 0))
    else
      var r := Page(s, ByUser(userId), page, pageSize, ports);
      var meant := set id | id in s.orders.rows && s.orders.rows[id].userId == userId;
      CountIs(s.orders, ByUser(userId), meant);
      r
  }

  /** A newly inserted row is the newest: it heads every newest-first listing that keeps it. */
  lemma NewestFirst(t: Table<Order>, k: string, o: Order, keep: Order -> bool)
    requires k !in t.rows && keep(o)
    ensures var all := Where(Insert(t, k, o), keep); |all| > 0 && all[0] == k
  {
    var keys := Reverse(t.order + [k]);
    assert keys[0] == k;
  }

  /** A freshly created order is listed first, both among all orders and among its user's
      orders, on page 1 of any size. */
  lemma CreateListedFirst(s: Store, req: CreateRequest, freshId: string, ports: Ports, pageSize: int)
    requires CreateAdmissible(s, req, freshId, ports)
    ensures var next := CreateOrder(s, req, freshId, ports).next;
            var all := ListOrders(next, 1, pageSize, 0, ports);
            var mine := GetOrdersByUser(next, req.userId, 1, pageSize, ports);
            && all.Reply? && |all.reply.orders| > 0 && all.reply.orders[0].orderId == freshId
            && mine.Reply? && |mine.reply.orders| > 0 && mine.reply.orders[0].orderId == freshId
  {
    var r := CreateOrder(s, req, freshId, ports);
    var o := r.next.orders.rows[freshId];
    assert r.next.orders == Insert(s.orders, freshId, o);
    NewestFirst(s.orders, freshId, o, StatusFilter(0));
    NewestFirst(s.orders, freshId, o, ByUser(req.userId));
  }
}

=== FILE: order_status.dfy ===
/** The order status enumeration, its six stored text forms (`status_to_string` /
    `status_to_proto`) and its wire integers (`OrderStatus::try_from(i32)`). */
module OrderStatus {

  datatype Status = Pending | Confirmed | Processing | Shipped | Delivered | Cancelled

  /** The six texts the `orders.status` column holds. */
  const Texts: set<string> := {"PENDING", "CONFIRMED", "PROCESSING", "SHIPPED", "DELIVERED", "CANCELLED"}

  /** `status_to_string`. */
  function ToText(s: Status): (t: string)
    ensures t in Texts
    ensures FromText(t) == s
  {
    match s
    case Pending => "PENDING"
    case Confirmed => "CONFIRMED"
    case Processing => "PROCESSING"
    case Shipped => "SHIPPED"
    case Delivered => "DELIVERED"
    case Cancelled => "CANCELLED"
  }

  /** `status_to_proto`: every text outside the six reads as `Pending`. */
  function FromText(t: string): (s: Status)
    ensures t !in Texts ==> s == Pending
    ensures s != Pending ==> t in Texts
  {
    match t
    case "PENDING" => Pending
    case "CONFIRMED" => Confirmed
    case "PROCESSING" => Processing
    case "SHIPPED" => Shipped
    case "DELIVERED" => Delivered
    case "CANCELLED" => Cancelled
    case _ => Pending
  }

  /** The text form is one-to-one, so the codec loses nothing on the six statuses. */
  lemma TextsDistinguish(a: Status, b: Status)
    ensures ToText(a) == ToText(b) <==> a == b
  {
  }

  /** Every stored text that is one of the six comes back unchanged. */
  lemma {:induction false} TextRoundTrip(t: string)
    requires t in Texts
    ensures ToText(FromText(t)) == t
  {
  }

  /** The enumerator values, in declaration order starting at 0 (the first value of a
      protobuf 3 enumeration is 0). */
  function ToWire(s: Status): (v: int)
    ensures 0 <= v < 6
    ensures FromWire(v) == s
  {
    match s
    case Pending => 0
    case Confirmed => 1
    case Processing => 2
    case Shipped => 3
    case Delivered => 4
    case Cancelled => 5
  }

  /** `OrderStatus::try_from(v).unwrap_or(OrderStatus::Pending)`. */
  function FromWire(v: int): (s: Status)
    ensures (v < 0 || v >= 6) ==> s == Pending
    ensures s != Pending ==> 0 < v < 6
  {
    if v == 1 then Confirmed
    else if v == 2 then Processing
    else if v == 3 then Shipped
    else if v == 4 then Delivered
    else if v == 5 then Cancelled
    else Pending
  }

  lemma WireRoundTrip(v: int)
    requires 0 <= v < 6
    ensures ToWire(FromWire(v)) == v
  {
  }

  /** Cancellation is refused only from these two; every other status may be cancelled. */
  predicate Terminal(s: Status)
  {
    s == Cancelled || s == Delivered
  }
}

=== FILE: pagination.dfy ===
/** Page normalisation shared by `list_orders`, `get_orders_by_user` and `list_products`,
    and the `LIMIT size OFFSET offset` slice the queries apply. */
module Pagination {
  import opened Basics

  const DefaultPageSize: int := 10
  const MaxPageSize: int := 100

  /** A normalised page request: 1-based page, page size and the row offset it starts at. */
  datatype Window = Window(page: int, size: int, offset: int)

  /** `page <= 0` reads as page 1; a size outside 1..100 reads as 10; the offset is computed
      in unbounded arithmetic (see `OffsetAsWritten` for the 32-bit product the source uses). */
  function Normalize(page: int, pageSize: int): (w: Window)
    ensures w.page >= 1 && 1 <= w.size <= MaxPageSize
    ensures w.page == (if page <= 0 then 1 else page)
    ensures w.size == (if pageSize <= 0 || pageSize > MaxPageSize then DefaultPageSize else pageSize)
    ensures w.offset >= 0
    ensures w.offset == (w.page - 1) * w.size
  {
    var p := if page <= 0 then 1 else page;
    var n := if pageSize <= 0 || pageSize > MaxPageSize then DefaultPageSize else pageSize;
    ProductNonNegative(p - 1, n);
    Window(p, n, (p - 1) * n)
  }

  lemma ProductNonNegative(a: int, b: int)
    requires a >= 0 && b >= 0
    ensures a * b >= 0
  {
  }

  /** `LIMIT limit OFFSET offset` over an ordered result. */
  function Slice<T>(s: seq<T>, offset: nat, limit: nat): (r: seq<T>)
    ensures |r| == (if offset >= |s| then 0 else Min(limit, |s| - offset))
    ensures forall i :: 0 <= i < |r| ==> offset + i < |s| && r[i] == s[offset + i]
  {
    if offset >= |s| then []
    else if offset + limit >= |s| then s[offset..]
    else s[offset..offset + limit]
  }

  /** No row is skipped by paging: row `i` of a result is item `i % size` of page `i / size + 1`. */
  lemma RowOnPage<T>(s: seq<T>, pageSize: int, i: int)
    requires 1 <= pageSize <= MaxPageSize
    requires 0 <= i < |s|
    ensures var w := Normalize(i / pageSize + 1, pageSize);
            var pg := Slice(s, w.offset, w.size);
            i % pageSize < |pg| && pg[i % pageSize] == s[i]
  {
    var w := Normalize(i / pageSize + 1, pageSize);
    assert w.offset == (i / pageSize) * pageSize;
    assert w.offset + i % pageSize == i;
  }

  /** The page a result's length names as the last one holds rows, and the page after it is
      empty, so a client paging by the reported count sees every row. */
  lemma LastPage<T>(s: seq<T>, pageSize: int)
    requires 1 <= pageSize <= MaxPageSize
    ensures var last := if |s| == 0 then 1 else (|s| - 1) / pageSize + 1;
            && (|s| > 0 ==> |Slice(s, Normalize(last, pageSize).offset, pageSize)| > 0)
            && Slice(s, Normalize(last + 1, pageSize).offset, pageSize) == []
  {
    if |s| > 0 {
      var q := (|s| - 1) / pageSize;
      assert q * pageSize <= |s| - 1;
      assert (q + 1) * pageSize >= |s| by {
        assert |s| - 1 == q * pageSize + (|s| - 1) % pageSize;
      }
    }
  }

  /** Two's-complement wrap-around of an integer to 32 bits, as Rust's `i32` arithmetic does
      in a release build. */
  function WrapI32(x: int): (r: int)
    ensures -0x8000_0000 <= r < 0x8000_0000
    ensures (x - r) % 0x1_0000_0000 == 0
    ensures -0x8000_0000 <= x < 0x8000_0000 ==> r == x
  {
    var m := x % 0x1_0000_0000;
    if m >= 0x8000_0000 then m - 0x1_0000_0000 else m
  }

  /** The offset as the handlers compute it: `(page - 1) * page_size` on two `i32`s. Where
      the true product fits in 32 bits it is the offset `Normalize` gives. */
  function OffsetAsWritten(page: int, pageSize: int): (o: int)
    requires -0x8000_0000 <= page < 0x8000_0000
    ensures -0x8000_0000 <= o < 0x8000_0000
    ensures Normalize(page, pageSize).offset < 0x8000_0000 ==> o == Normalize(page, pageSize).offset
  {
    var w := Normalize(page, pageSize);
    WrapI32(WrapI32(w.page - 1) * w.size)
  }

  /** The largest page number a client can send wraps the 32-bit offset to a negative value,
      which the database refuses (`OFFSET must not be negative`). */
  lemma OffsetAsWrittenGoesNegative()
    ensures OffsetAsWritten(0x7fff_ffff, 100) == -200
    ensures Normalize(0x7fff_ffff, 100).offset == 214_748_364_600
  {
  }

  /** A page past 2^31 / 100 wraps the other way, to a small positive offset: page 42949674
      with size 100 starts at row 4 where it should start at row 4294967300. */
  lemma OffsetAsWrittenWrapsPositive()
    ensures OffsetAsWritten(42_949_674, 100) == 4
    ensures Normalize(42_949_674, 100).offset == 4_294_967_300
  {
  }

  /** The page as the handlers fetch it with the 32-bit offset: the database refuses a
      negative `OFFSET` (`None`, an internal error), and otherwise pages from the wrapped
      offset, wherever that is. */
  function SliceAsWritten<T>(s: seq<T>, page: int, pageSize: int): (r: Option<seq<T>>)
    requires -0x8000_0000 <= page < 0x8000_0000
    ensures r.None? <==> OffsetAsWritten(page, pageSize) < 0
    ensures r.Some? ==>
              |r.value| <= Normalize(page, pageSize).size &&
              forall i :: 0 <= i < |r.value| ==>
                OffsetAsWritten(page, pageSize) + i < |s| && r.value[i] == s[OffsetAsWritten(page, pageSize) + i]
    ensures Normalize(page, pageSize).offset < 0x8000_0000 ==>
              r == Some(Slice(s, Normalize(page, pageSize).offset, Normalize(page, pageSize).size))
  {
    var o := OffsetAsWritten(page, pageSize);
    if o < 0 then None else Some(Slice(s, o, Normalize(page, pageSize).size))
  }

  /** The last page number a client can send makes every listing handler fail. */
  lemma NegativeWrapRefusesPage<T>(s: seq<T>)
    ensures SliceAsWritten(s, 0x7fff_ffff, 100) == None
  {
    OffsetAsWrittenGoesNegative();
  }

  /** Page 42949674 of size 100 should be empty for any realistic table, but as written it
      shows rows 4 to 103 again. */
  lemma PositiveWrapShowsEarlyRows<T>(s: seq<T>)
    requires 104 <= |s| <= 4_294_967_300
    ensures SliceAsWritten(s, 42_949_674, 100) == Some(s[4..104])
    ensures Slice(s, Normalize(42_949_674, 100).offset, 100) == []
  {
    OffsetAsWrittenWrapsPositive();
    assert Slice(s, 4, 100) == s[4..104];
  }
}

=== FILE: ratelimit.dfy ===
/** The fixed-window admission controller placed in front of a service (`RateLimitService::call`).
    Each call is one atomic read-check-write on its client's slot of the shared map. Instants
    are integer clock ticks; a window is a number of ticks. */
module RateLimit {
  import opened Basics

  type Byte = b: int | 0 <= b < 256

  /** `RateLimitLayer::new(max_requests, window)`. */
  datatype Config = Config(maxRequests: nat, window: nat)

  /** One client's slot: requests admitted in the current window and when that window began. */
  datatype ClientState = ClientState(count: nat, windowStart: int)

  type Clients = map<string, ClientState>

  /** The decision for one call and the client map after it. */
  datatype Admission = Admission(allowed: bool, clients: Clients)

  /** An HTTP request as the layer sees it: header names are lower case (as `HeaderMap`
      stores them) and each maps to the first value sent under that name. */
  datatype Request = Request(headers: map<string, seq<Byte>>, body: seq<Byte>)

  datatype Response = Response(status: nat, body: seq<Byte>)

  const ForwardedFor: string := "x-forwarded-for"
  const UnknownClient: string := "unknown"
  const TooManyRequests: nat := 429

  /** `HeaderValue::to_str` succeeds only on visible ASCII and horizontal tab. */
  predicate VisibleAscii(v: seq<Byte>)
  {
    forall i :: 0 <= i < |v| ==> v[i] == 9 || 32 <= v[i] < 127
  }

  function AsText(v: seq<Byte>): (t: string)
    ensures |t| == |v|
    ensures forall i :: 0 <= i < |v| ==> t[i] as int == v[i]
  {
    seq(|v|, i requires 0 <= i < |v| => v[i] as char)
  }

  /** The client key: the forwarded-for header when present and readable, else the shared
      sentinel bucket. */
  function ClientKey(headers: map<string, seq<Byte>>): (k: string)
    ensures ForwardedFor in headers && VisibleAscii(headers[ForwardedFor]) ==>
              |k| == |headers[ForwardedFor]| &&
              forall i :: 0 <= i < |k| ==> k[i] as int == headers[ForwardedFor][i]
    ensures ForwardedFor !in headers || !VisibleAscii(headers[ForwardedFor]) ==> k == UnknownClient
  {
    if ForwardedFor in headers && VisibleAscii(headers[ForwardedFor]) then AsText(headers[ForwardedFor])
    else UnknownClient
  }

  /** Every client without a readable header shares one bucket with a client that sends the
      literal header value `unknown`. */
  lemma SentinelBucketShared(h1: map<string, seq<Byte>>, h2: map<string, seq<Byte>>)
    requires ForwardedFor !in h1
    requires ForwardedFor in h2 && h2[ForwardedFor] == [117, 110, 107, 110, 111, 119, 110]
    ensures ClientKey(h1) == ClientKey(h2) == UnknownClient
  {
    var k := ClientKey(h2);
    assert |k| == 7;
    assert k == UnknownClient by {
      forall i | 0 <= i < 7
        ensures k[i] == UnknownClient[i]
      {
        assert k[i] as int == h2[ForwardedFor][i];
      }
    }
  }

  /** `Instant::duration_since`, which saturates at zero for an earlier instant. */
  function Elapsed(now: int, since: int): nat
  {
    if now >= since then now - since else 0
  }

  /** The critical section of `call`: the `entry(..).and_modify(..).or_insert_with(..)` update. */
  function Admit(cfg: Config, clients: Clients, key: string, now: int): (a: Admission)
    ensures key in a.clients
    ensures a.clients - {key} == clients - {key}
    ensures key !in clients ==> a.allowed && a.clients[key] == ClientState(1, now)
    ensures key in clients && Elapsed(now, clients[key].windowStart) > cfg.window ==>
              a.allowed && a.clients[key] == ClientState(1, now)
    ensures key in clients && Elapsed(now, clients[key].windowStart) <= cfg.window ==>
              a.allowed == (clients[key].count < cfg.maxRequests) &&
              a.clients[key] == (if a.allowed then clients[key].(count := clients[key].count + 1) else clients[key])
  {
    if key !in clients then
      Admission(true, clients[key := ClientState(1, now)])
    else
      var st := clients[key];
      if Elapsed(now, st.windowStart) > cfg.window then
        Admission(true, clients[key := ClientState(1, now)])
      else if st.count < cfg.maxRequests then
        Admission(true, clients[key := st.(count := st.count + 1)])
      else
        Admission(false, clients)
  }

  /** The outcome of `call`: the response, whether the inner service was invoked, and the
      client map afterwards. */
  datatype Served = Served(response: Response, forwarded: bool, clients: Clients)

  function Call(cfg: Config, clients: Clients, req: Request, now: int, inner: Request -> Response): (s: Served)
    ensures var a := Admit(cfg, clients, ClientKey(req.headers), now);
            && s.forwarded == a.allowed
            && s.clients == a.clients
    ensures s.forwarded ==> s.response == inner(req)
    ensures !s.forwarded ==> s.response == Response(TooManyRequests, [])
  {
    var a := Admit(cfg, clients, ClientKey(req.headers), now);
    if a.allowed then Served(inner(req), true, a.clients)
    else Served(Response(TooManyRequests, []), false, a.clients)
  }

  /** Every slot has admitted at least one and at most `max(1, max_requests)` requests in its window. */
  ghost predicate Bounded(cfg: Config, clients: Clients)
  {
    forall k :: k in clients ==> 1 <= clients[k].count <= Max(1, cfg.maxRequests)
  }

  lemma AdmitKeepsBounded(cfg: Config, clients: Clients, key: string, now: int)
    requires Bounded(cfg, clients)
    ensures Bounded(cfg, Admit(cfg, clients, key, now).clients)
  {
  }

  /** How many of a run of calls from one client, at the given instants, are admitted. */
  function AllowedCount(cfg: Config, clients: Clients, key: string, times: seq<int>): (n: nat)
    ensures n <= |times|
    decreases |times|
  {
    if times == [] then 0
    else
      var a := Admit(cfg, clients, key, times[0]);
      (if a.allowed then 1 else 0) + AllowedCount(cfg, a.clients, key, times[1..])
  }

  /** Within one window a slot admits exactly as many further calls as it has budget left. */
  lemma {:induction false} WithinWindow(cfg: Config, clients: Clients, key: string, times: seq<int>)
    requires key in clients
    requires 1 <= clients[key].count <= Max(1, cfg.maxRequests)
    requires forall i :: 0 <= i < |times| ==> Elapsed(times[i], clients[key].windowStart) <= cfg.window
    ensures AllowedCount(cfg, clients, key, times) == Min(|times|, Max(1, cfg.maxRequests) - clients[key].count)
    decreases |times|
  {
    if times != [] {
      var a := Admit(cfg, clients, key, times[0]);
      assert a.clients[key].windowStart == clients[key].windowStart;
      WithinWindow(cfg, a.clients, key, times[1..]);
    }
  }

  /** From a client's first call, at most `max(1, max_requests)` calls inside the window are
      admitted (all of them up to that budget). */
  lemma FirstWindow(cfg: Config, clients: Clients, key: string, times: seq<int>)
    requires key !in clients && times != []
    requires forall i :: 0 <= i < |times| ==> Elapsed(times[i], times[0]) <= cfg.window
    ensures AllowedCount(cfg, clients, key, times) == Min(|times|, Max(1, cfg.maxRequests))
  {
    var a := Admit(cfg, clients, key, times[0]);
    WithinWindow(cfg, a.clients, key, times[1..]);
  }

  /** The identity service's limiter, 10 calls per 60 seconds: of eleven calls from one client
      within a minute of its first, only ten are admitted. */
  lemma EleventhCallDenied(clients: Clients, key: string, times: seq<int>)
    requires key !in clients && |times| == 11
    requires forall i :: 0 <= i < |times| ==> Elapsed(times[i], times[0]) <= 60
    ensures AllowedCount(Config(10, 60), clients, key, times) == 10
  {
    FirstWindow(Config(10, 60), clients, key, times);
  }

  /** A call arriving strictly more than one window after the slot's window began starts a
      fresh window and is admitted, whatever the count was. */
  lemma WindowExpiryResets(cfg: Config, clients: Clients, key: string, now: int)
    requires key in clients && now > clients[key].windowStart + cfg.window
    ensures Admit(cfg, clients, key, now) == Admission(true, clients[key := ClientState(1, now)])
  {
  }
}

=== FILE: tables.dfy ===
/** A relational table keyed by a text primary key. Besides the rows it records the keys in
    insertion order; the services' `ORDER BY created_at DESC` reads that order backwards
    (timestamps come from a clock that does not run backwards). */
module Tables {
  import opened Basics

  datatype Table<T> = Table(rows: map<string, T>, order: seq<string>)

  predicate Distinct(s: seq<string>)
  {
    forall i, j | 0 <= i < j < |s| :: s[i] != s[j]
  }

  /** The insertion order lists every primary key exactly once. */
  ghost predicate Valid<T>(t: Table<T>)
  {
    && Distinct(t.order)
    && forall k :: k in t.rows <==> k in t.order
  }

  function Empty<T>(): (t: Table<T>)
    ensures Valid(t) && t.rows == map[]
  {
    Table(map[], [])
  }

  lemma DistinctTail(s: seq<string>)
    requires Distinct(s) && s != []
    ensures Distinct(s[1..]) && s[0] !in s[1..]
  {
  }

  /** `INSERT`: a new row at the newest end. */
  function Insert<T>(t: Table<T>, k: string, v: T): (r: Table<T>)
    requires k !in t.rows
    ensures Valid(t) ==> Valid(r)
    ensures r.rows == t.rows[k := v]
    ensures r.order == t.order + [k]
  {
    Table(t.rows[k := v], t.order + [k])
  }

  /** `UPDATE ... WHERE id = k` on an existing row: the row's position is kept. */
  function Set<T>(t: Table<T>, k: string, v: T): (r: Table<T>)
    requires k in t.rows
    ensures Valid(t) ==> Valid(r)
    ensures r.rows == t.rows[k := v] && r.order == t.order
  {
    Table(t.rows[k := v], t.order)
  }

  /** `s` with every occurrence of `k` dropped. */
  function Without(s: seq<string>, k: string): (r: seq<string>)
    ensures forall x :: x in r <==> x in s && x != k
    ensures Distinct(s) ==> Distinct(r)
    ensures k !in s ==> r == s
  {
    if s == [] then []
    else if s[0] == k then Without(s[1..], k)
    else
      var rest := Without(s[1..], k);
      if Distinct(s) then DistinctTail(s); [s[0]] + rest else [s[0]] + rest
  }

  /** Dropping a key that sits at position `i` of a duplicate-free sequence closes the gap:
      the keys before and after it keep their places relative to each other. */
  lemma {:induction false} WithoutSplices(s: seq<string>, k: string, i: int)
    requires Distinct(s) && 0 <= i < |s| && s[i] == k
    ensures Without(s, k) == s[..i] + s[i + 1..]
  {
    DistinctTail(s);
    var tail := s[1..];
    if i == 0 {
      assert Without(s, k) == Without(tail, k);
    } else {
      assert s[0] != k && tail[i - 1] == k;
      WithoutSplices(tail, k, i - 1);
      var before, after := tail[..i - 1], tail[i..];
      assert Without(s, k) == [s[0]] + (before + after);
      assert s[..i] == [s[0]] + before;
      assert s[i + 1..] == after;
    }
  }

  /** `DELETE ... WHERE id = k`. */
  function Delete<T>(t: Table<T>, k: string): (r: Table<T>)
    ensures Valid(t) ==> Valid(r)
    ensures r.rows == t.rows - {k}
    ensures r.order == Without(t.order, k)
  {
    Table(t.rows - {k}, Without(t.order, k))
  }

  function Reverse(s: seq<string>): (r: seq<string>)
    ensures |r| == |s|
    ensures forall i :: 0 <= i < |s| ==> r[i] == s[|s| - 1 - i]
    ensures forall x :: x in r <==> x in s
    ensures Distinct(s) ==> Distinct(r)
  {
    if s == [] then []
    else
      var r := Reverse(s[1..]) + [s[0]];
      assert forall i :: 0 <= i < |s| ==> r[i] == s[|s| - 1 - i];
      r
  }

  /** The keys of `keys`, in order, whose row exists and satisfies `keep`. */
  function Select<T>(keys: seq<string>, rows: map<string, T>, keep: T -> bool): (r: seq<string>)
    ensures forall x :: x in r <==> x in keys && x in rows && keep(rows[x])
    ensures Distinct(keys) ==> Distinct(r)
    ensures |r| <= |keys|
  {
    if keys == [] then []
    else
      var rest := Select(keys[1..], rows, keep);
      if keys[0] in rows && keep(rows[keys[0]]) then
        if Distinct(keys) then DistinctTail(keys); [keys[0]] + rest else [keys[0]] + rest
      else rest
  }

  /** `SELECT id ... WHERE keep ORDER BY created_at DESC`: matching keys, newest first. */
  function Where<T>(t: Table<T>, keep: T -> bool): (r: seq<string>)
    ensures forall k :: k in r ==> k in t.rows && keep(t.rows[k])
    ensures Valid(t) ==> Distinct(r)
    ensures Valid(t) ==> forall k :: k in t.rows && keep(t.rows[k]) ==> k in r
  {
    Select(Reverse(t.order), t.rows, keep)
  }

  /** `SELECT COUNT(*) ... WHERE keep`. */
  function Count<T>(t: Table<T>, keep: T -> bool): nat
  {
    |set k | k in t.rows && keep(t.rows[k])|
  }

  /** `Count` is the size of any set that holds exactly the matching keys. */
  lemma CountIs<T>(t: Table<T>, keep: T -> bool, matching: set<string>)
    requires forall k :: k in matching <==> k in t.rows && keep(t.rows[k])
    ensures Count(t, keep) == |matching|
  {
    assert matching == set k | k in t.rows && keep(t.rows[k]);
  }

  lemma {:induction false} DistinctCard(s: seq<string>)
    requires Distinct(s)
    ensures |set x | x in s| == |s|
  {
    if s != [] {
      DistinctTail(s);
      DistinctCard(s[1..]);
      assert (set x | x in s) == {s[0]} + (set x | x in s[1..]);
    }
  }

  /** The rows a listing walks through are exactly the rows its `COUNT(*)` counts. */
  lemma WhereCount<T>(t: Table<T>, keep: T -> bool)
    requires Valid(t)
    ensures |Where(t, keep)| == Count(t, keep)
  {
    var w := Where(t, keep);
    DistinctCard(w);
    assert (set x | x in w) == (set k | k in t.rows && keep(t.rows[k]));
  }

  /** With a filter that keeps everything, the count is the size of the table. */
  lemma CountAll<T>(t: Table<T>, keep: T -> bool)
    requires forall v :: keep(v)
    ensures Count(t, keep) == |t.rows|
  {
    assert (set k | k in t.rows && keep(t.rows[k])) == t.rows.Keys;
  }
}
